=== FILE: README.md ===
# AI Excel mock interviewer: the interview state machine

The interviewer is a chat front end plus an agent. The agent keeps a skill
profile: one record per skill for Data Cleaning, Data Analysis, Data
Summarization and Behavioral. Each record holds a status (Untested, Assessed or
Skipped), a score and an evidence text. The three technical records also hold
an efficiency score; the Behavioral record has none. The front end
walks the candidate through four stages: start, technical interview,
behavioural interview and report.

In the technical stage it asks about the first Untested technical skill. It
reads the language model's verdict on each answer. `ANSWERING` evaluates the
answer, `HINT_REQUEST` gives a hint, `UNCERTAIN` skips the skill, and any other
label is ignored. Once no technical skill is Untested, it asks one behavioural
question, evaluates the answer and moves to the report.

This project models that core in Dafny. The language model is an oracle: every
call is a reply parameter (`Oracle.TextReply`, `Oracle.JsonReply`). A failed
call is a reply of its own, mapped to the fallback value the agent substitutes.
The front end's session storage becomes an explicit `App.Session` value, and
every handler is a pure function of a session and the oracle's replies.

Modules:
- `Wrappers`: `Option` and `Result`.
- `Text`: Python's `str.strip()` with the exact `isspace` character set, `str.replace` for deleting a pattern, the JSON-fence clean-up, space replacement, and `str(n)` for naturals.
- `Oracle`: the reply types, and the fallbacks used when a call fails.
- `SkillProfile`: the records, the fresh profile and the search for the next Untested skill.
- `Interviewer`: the agent's operations in `interviewer.py`.
- `App`: the session and handlers in `streamlit_app.py`.
- `Progress`: properties of whole interviews, as sequences of candidate turns.

Behaviour of the code that the model keeps, although a reader might expect otherwise:
- An intent label other than the three exact ones changes nothing except the appended candidate message (streamlit_app.py:95-106). It is not a skip.
- `_evaluate_technical_answer` does not look at the record's status (interviewer.py:123): by itself it would overwrite an Assessed or Skipped record (`Interviewer.TechnicalEvaluationOverwrites`). No interview reaches that case, because `current_skill` is always the first Untested skill and records that have left Untested are never touched again (`Progress.StepPreservesInv`).
- Under a total oracle outage the report is never reached. A failed intent call yields the apology text, which is not a recognised label, so the technical stage never moves (`Progress.OutageStallsTechnicalStage`).
- Scores are stored exactly as the oracle returns them, with no 1–5 range check.
- The report screen logs the agent's `conversation_history`, which is always empty (see "## Findings").

## Model

| member | source | states |
|---|---|---|
| `Oracle.CallText` | interviewer.py:61-70 | a free-text call yields the model's text, or the fixed apology when the call fails |
| `Oracle.CallJson` | interviewer.py:62-69 | a structured call yields the parsed object, or, when the call fails, an object whose only entry is the fixed error message, so every key the code reads is missing |
| `Text.Strip` | interviewer.py:101 | Python's `str.strip()`, defined as trimming the back of the front-trimmed text; its contract is stated by `Text.StripSpec`, `Text.StripUnique`, `Text.StripKeepsTrimmed` and `Text.StripIdempotent` |
| `Text.TrimStartSpec` | interviewer.py:101 | stripping the front removes only whitespace (Python's `isspace` set) and keeps a suffix that does not begin with whitespace |
| `Text.TrimEndSpec` | interviewer.py:101 | stripping the back removes only whitespace and keeps a prefix that does not end with whitespace |
| `Text.StripSpec` | interviewer.py:101 | `strip()` yields a contiguous slice of the input, cut off by whitespace only, with no whitespace at either end |
| `Text.StripUnique` | interviewer.py:101 | whitespace around a trimmed word is exactly what `strip()` removes: the result is that word |
| `Text.StripKeepsTrimmed` | interviewer.py:101 | text with no whitespace at either end is returned unchanged |
| `Text.StripIdempotent` | interviewer.py:63 | stripping twice is stripping once |
| `Text.RemoveAll` | interviewer.py:63 | `replace(pat, "")`, a left-to-right scan that deletes each non-overlapping occurrence: the result is never longer than the input, and text without the pattern passes unchanged; the scan itself is stated by `Text.RemoveAllSkipsPlain` and `Text.RemoveAllLeadingPattern` |
| `Text.RemoveAllSkipsPlain` | interviewer.py:63 | `replace(pat, "")` passes text that holds no first character of `pat` through unchanged and continues on the rest |
| `Text.RemoveAllLeadingPattern` | interviewer.py:63 | `replace(pat, "")` deletes an occurrence at the front and resumes the scan after it |
| `Text.NoFenceSurvives` | interviewer.py:63 | after every "```" is deleted, none is left, even where deletions bring backticks together |
| `Text.JsonPayload` | interviewer.py:63 | the text handed to the JSON parser is no longer than the reply and holds no "```" |
| `Text.FencedBodyRecovered` | interviewer.py:63 | a reply wrapped as "```json" + body + "```" yields exactly the body, when the body has no backtick |
| `Text.UnfencedReplyOnlyStripped` | interviewer.py:63 | a reply with no backtick reaches the parser merely stripped |
| `Text.SpacesToUnderscores` | interviewer.py:181 | `replace(' ', '_')` keeps the length, turns every U+0020 into "_", leaves every other character (tabs included) unchanged, and leaves no space |
| `Text.NatToString` | interviewer.py:181 | `str(int(...))` of a natural is a non-empty digit string with no leading zero |
| `Text.ParseNatToString` | interviewer.py:181 | reading the decimal form back gives the number |
| `SkillProfile.FreshProfile` | interviewer.py:43-48 | the initial profile has exactly the four skills, all Untested with score 0 and empty evidence; the technical ones have efficiency 0 and Behavioral has no efficiency entry |
| `SkillProfile.SetStatus` | streamlit_app.py:104 | setting a status changes that one field of that one record and nothing else |
| `SkillProfile.FirstUntested` | streamlit_app.py:56-61 | the search finds nothing exactly when every skill in the order is done; otherwise it finds an Untested skill with none Untested before it |
| `SkillProfile.NextUntested` | streamlit_app.py:54-61 | the search of `ask_next_technical_question`, defined as `FirstUntested` over Cleaning, Analysis, Summarization; its contract is stated by `SkillProfile.NextUntestedAtFrontier` |
| `SkillProfile.NextUntestedAtFrontier` | streamlit_app.py:54-61 | the next skill asked about is the first Untested one of Cleaning, Analysis, Summarization, or none once all three are done |
| `SkillProfile.FrontierSplitsOrder` | streamlit_app.py:58-61 | when the Untested skills form a suffix of the order, the ones done are exactly a prefix of it |
| `SkillProfile.FrontierAdvances` | streamlit_app.py:58-61 | finishing the skill at the front, and nothing else, keeps the Untested skills a suffix and moves the front on by one |
| `Interviewer.NewAgent` | interviewer.py:37-50 | construction fails exactly when no non-empty API key is configured; otherwise the agent has the name, no role, no case study, an empty history and every skill Untested |
| `Interviewer.NewAgentProfile` | interviewer.py:43-48 | a new agent's profile has exactly the four keys, score 0 and empty evidence throughout, efficiency 0 on the technical skills and none on Behavioral |
| `Interviewer.CheckUserIntent` | interviewer.py:92-101 | the label is the stripped text of the intent call, the apology text when the call fails; its contract is stated by `Interviewer.IntentTrimmed`, `Interviewer.PaddedIntentRecognised` and `Interviewer.FailedIntentCall` |
| `Interviewer.IntentTrimmed` | interviewer.py:92-101 | the intent label never begins or ends with whitespace |
| `Interviewer.PaddedIntentRecognised` | interviewer.py:101 | a label with whitespace on either side is read as the bare label |
| `Interviewer.FailedIntentCall` | interviewer.py:66-70 | a failed intent call yields the apology text as the label |
| `Interviewer.EvaluateTechnicalAnswer` | interviewer.py:122-129 | only the named skill changes: it becomes Assessed with the oracle's score and efficiency (0 when missing, no range check), and its evidence starts "Q: question\nA: answer"; the reply is the oracle's `bot_response`, or the default thanks |
| `Interviewer.EvaluateBehavioralAnswer` | interviewer.py:148-154 | only Behavioral changes: it becomes Assessed with the oracle's score (0 when missing), its efficiency entry is kept, and its evidence starts with the same header; the reply is always the fixed thanks |
| `Interviewer.FailedTechnicalEvaluation` | interviewer.py:122-129 | when the structured call fails, the skill is still Assessed, with score 0, efficiency 0, "None" for both justifications and the default reply |
| `Interviewer.FailedBehavioralEvaluation` | interviewer.py:148-153 | when the structured call fails, Behavioral is still Assessed with score 0 and "None" as the justification |
| `Interviewer.TechnicalEvaluationOverwrites` | interviewer.py:123-128 | the result does not depend on the record replaced, whatever its status (Assessed or Skipped included) |
| `Interviewer.TechnicalEvidenceExtendsBehavioral` | interviewer.py:127 | technical evidence is the behavioural evidence for the same texts followed by the efficiency note |
| `Interviewer.IntroduceCaseStudy` | interviewer.py:78-79 | the oracle's object, or the error object, becomes the agent's case study, and the introduction opens with the case-study lead-in |
| `Interviewer.FailedCaseStudyIntro` | interviewer.py:66-79 | a failed case-study call is introduced with "None" for both the scenario and the dataset description, between the fixed lead-in, dataset label and closing line |
| `Interviewer.CaseStudyScenarioShown` | interviewer.py:78-79 | a parsed case study's scenario text follows the lead-in directly, and the introduction ends with the closing line |
| `Interviewer.LogFilename` | interviewer.py:181 | the log name starts "interview_log_", ends ".json", and its length is fixed by the name and the digits |
| `Interviewer.LogFilenameRoundTrip` | interviewer.py:181 | the name part (spaces replaced) and the whole seconds can be read back from the log name |
| `Interviewer.LogFilenameDistinguishes` | interviewer.py:181 | two equal log names come from the same seconds and the same name after space replacement |
| `Interviewer.LogFilenameCollision` | interviewer.py:181 | "A B" and "A_B" at the same second share a log file name |
| `Interviewer.GenerateFinalReport` | interviewer.py:170-181 | the report is the oracle's text; the log records the candidate's name, the role, the timestamp given, the report, the final profile and the agent's `conversation_history`, under the log name |
| `Interviewer.GenerateFinalReportWithTranscript` | interviewer.py:173-181 | the corrected log records the chat transcript it is given, with the same name, role, timestamp, report, profile and log name |
| `App.Classify` | streamlit_app.py:95-103 | the label is compared exactly, case-sensitively, against the three labels; its contract is stated by `App.ClassifyExact` |
| `App.ClassifyExact` | streamlit_app.py:95-103 | each intent is read from exactly its own label, in both directions, and every other word is Unrecognised |
| `App.Greeting` | streamlit_app.py:39 | the first chat message, "Hello {name}! Welcome to the interview. The role is set to {role}."; its contract is stated by `App.GreetingNamesCandidate` |
| `App.GreetingNamesCandidate` | streamlit_app.py:39 | the greeting opens with "Hello ", then the candidate's name at a fixed position, and ends with the role and a full stop |
| `App.AskBehavioralQuestion` | streamlit_app.py:74-80 | appends the transition text and then the question, makes it the current question, and changes nothing else |
| `App.AskNextTechnicalQuestion` | streamlit_app.py:52-72 | with an Untested technical skill, asks about the first one and makes it current; with none, moves to the behavioural stage and asks the behavioural question; the agent is never touched |
| `App.StartInterview` | streamlit_app.py:34-50 | without a key, only the stage goes back to start; with one, a new agent with the name, the role, the oracle's case study stored and an empty history, every skill Untested, and exactly three messages: the greeting, the case-study introduction and the first question, on Data Cleaning |
| `App.ReplyAndAdvance` | streamlit_app.py:96-99 | after the bot's reply, the session asks the question the profile calls for: technical exactly while a skill is Untested, on the first such skill; the oracle's question is appended right after the reply, after the transition text when the stage turned behavioural, and becomes the current question |
| `App.RespondTechnical` | streamlit_app.py:91-106 | the technical branch only extends the transcript, stays technical or turns behavioural, and never writes the agent's history |
| `App.Answer` | streamlit_app.py:95-99 | ANSWERING assesses the current skill with the oracle's scores, keeps every other record and the rest of the agent, appends the oracle's `bot_response` (or the default thanks) and then asks the next question, after the transition text on the hand-off to the behavioural stage |
| `App.Skip` | streamlit_app.py:103-106 | UNCERTAIN marks the current skill Skipped, with its other fields and the rest of the agent kept, appends the acknowledgement and then asks the next question as an answer would |
| `App.RespondBehavioral` | streamlit_app.py:108-112 | any behavioural answer appends the thanks and moves to the report |
| `App.HandleUserResponse` | streamlit_app.py:83-112 | every response first appends the candidate's message; the stage never moves backwards; the session stays well formed |
| `App.ShowReport` | streamlit_app.py:141-148 | the report screen as written: the report is the oracle's text, and the log holds the candidate's name, the role, the timestamp, the final profile and the agent's `conversation_history` under the log name |
| `App.ShowReportWithTranscript` | streamlit_app.py:141-148 | the corrected report screen: the same report, name, role, timestamp, profile and log name, with the session's whole chat transcript logged |
| `Progress.StartEstablishesInv` | streamlit_app.py:34-47 | a successful start is in the technical stage on Data Cleaning with nothing done, and the interview invariant holds |
| `Progress.StepAppendsUserMessage` | streamlit_app.py:86 | every turn keeps the transcript as a prefix and puts the candidate's message right after it |
| `Progress.HintStep` | streamlit_app.py:100-102 | a hint turn appends the candidate's message and one message with the hint prefix, and nothing else changes |
| `Progress.UnrecognisedStep` | streamlit_app.py:95-106 | a label other than the three exact ones only appends the candidate's message |
| `Progress.UncertainStep` | streamlit_app.py:103-106 | an UNCERTAIN turn skips the current skill, appends the acknowledgement after the candidate's message, then the next question (after the transition text once behavioural), which becomes current |
| `Progress.AnsweringStep` | streamlit_app.py:95-99 | an ANSWERING turn assesses the current skill and keeps the rest of the agent, appends the reply after the candidate's message, then the next question (after the transition text once behavioural), which becomes current |
| `Progress.BehavioralStep` | streamlit_app.py:108-112 | a behavioural turn assesses Behavioral with the oracle's score, keeps the technical records, and moves to the report |
| `Progress.IdleStep` | streamlit_app.py:83-112 | in the start and report stages a response is only recorded |
| `Progress.AdvancingStep` | streamlit_app.py:95-106 | an ANSWERING or UNCERTAIN turn takes exactly the skill at the front out of Untested; it turns behavioural exactly after the third |
| `Progress.StillStep` | streamlit_app.py:100-106 | a hint or unrecognised turn keeps agent, stage, current skill and current question |
| `Progress.StepPreservesInv` | streamlit_app.py:83-112 | every turn keeps the invariant, never touches a finished record, and moves the front exactly when it advances |
| `Progress.RunMonotone` | streamlit_app.py:83-112 | over any run the stage only moves forward and the transcript only grows, by at least one message per turn |
| `Progress.RunAppend` | streamlit_app.py:83-112 | handling two lists of turns one after the other is handling their concatenation |
| `Progress.RunProgress` | streamlit_app.py:58-72 | over any run the front moves by exactly the number of advancing turns, and finished records stay as they were |
| `Progress.AdvancesCountSkillsDone` | streamlit_app.py:58-72 | at most three turns advance; the stage is technical exactly while fewer than three have; the skills done are exactly that many from the front of the order |
| `Progress.ThreeAdvancesReachBehavioral` | streamlit_app.py:45-72 | the same from the session a successful start produces |
| `Progress.UncertainRunAdvances` | streamlit_app.py:103-106 | every UNCERTAIN turn advances while technical skills remain |
| `Progress.UncertainRunSkips` | streamlit_app.py:103-106 | a run of UNCERTAIN turns marks the skills from the front onwards Skipped, in order |
| `Progress.SkipMarksFrontier` | streamlit_app.py:103-106 | an UNCERTAIN turn marks exactly the skill at the front Skipped |
| `Progress.SkipAllReachesBehavioral` | streamlit_app.py:58-106 | three UNCERTAIN turns reach the behavioural stage with all technical skills Skipped and Behavioral Untested |
| `Progress.SkippedSurviveBehavioralStep` | streamlit_app.py:108-112 | the behavioural turn leaves Skipped technical records Skipped |
| `Progress.SkipAllThenBehavioral` | streamlit_app.py:95-112 | three UNCERTAIN turns and one behavioural answer reach the report with all technical skills Skipped and Behavioral Assessed with the oracle's score |
| `Progress.SkipAllInterview` | streamlit_app.py:95-112 | the same, stated of the four turns as one run |
| `Progress.HintsKeepPosition` | streamlit_app.py:100-102 | any number of hints keep stage, agent, skill and question, adding two messages each |
| `Progress.UncertainReplyRead` | streamlit_app.py:93-103 | a reply of exactly "UNCERTAIN" takes the UNCERTAIN branch |
| `Progress.AnswerScoresFrontier` | streamlit_app.py:95-99 | an ANSWERING turn puts its evaluation's score and efficiency (0 when missing) on the skill at the front, Assessed, keeps every other record, and moves the front on by one; it turns behavioural exactly after the third |
| `Progress.AnswersScoredFromFrontier` | streamlit_app.py:95-99 | a run of ANSWERING turns, no longer than the skills left, puts each turn's scores on its own skill, in order from the front |
| `Progress.AnsweredCarried` | streamlit_app.py:95-99 | a scored record behind the front survives the rest of an ANSWERING run |
| `Progress.ScoresShift` | streamlit_app.py:58-61 | scores from the next position on for the later turns, and the first turn's at the front, are scores in order from the front |
| `Progress.AnsweringToTheEndScoresInOrder` | streamlit_app.py:58-99 | answering every technical question still open reaches the behavioural stage with each turn's scores on its own skill in order, Behavioral still Untested |
| `Progress.ThreeAnswersScoredInOrder` | streamlit_app.py:58-99 | from the start of the technical stage, three ANSWERING turns put their scores on Data Cleaning, Data Analysis and Data Summarization in that order and reach the behavioural stage with Behavioral Untested |
| `Progress.LastScoredIsBehavioral` | streamlit_app.py:58-72 | once Data Summarization is scored, short of the report, the stage is behavioural and Behavioral is Untested |
| `Progress.AnsweringReplyRead` | streamlit_app.py:93-95 | a reply of exactly "ANSWERING" takes the ANSWERING branch |
| `Progress.FailedIntentUnrecognised` | streamlit_app.py:93-106 | a failed intent call is read as none of the three labels |
| `Progress.OutageStallsTechnicalStage` | streamlit_app.py:91-106 | while the intent call keeps failing, only candidate messages are added and the technical stage never moves |
| `Progress.RunKeepsHistory` | interviewer.py:50 | no turn ever writes the agent's `conversation_history` |
| `Progress.LoggedTranscriptAlwaysEmpty` | interviewer.py:178 | as written, the logged transcript is empty after every interview, on the report screen too, while the chat holds at least three messages |
| `Progress.ReportLogsTranscript` | streamlit_app.py:141-148 | the corrected report screen logs the whole chat, which starts with the greeting and holds at least three messages |

## Left out

- The language model itself is left out: `genai.configure`, `GenerativeModel`, `generate_content`, the safety settings and every prompt's wording. Each call is a reply parameter, with a failure case.
- The API-key lookup in Streamlit secrets and the environment (interviewer.py:11-28) is configuration I/O. The key is a parameter.
- Rendering is left out: spinners, forms, chat widgets, `st.rerun` and the page layout. So is the report screen's regeneration of the report on every rerun: `App.ShowReport` is one call.
- Writing the log file (`open`, `json.dump`) and the admin print are left out. `time.time()` is two parameters: the float timestamp and the whole seconds.
- `json.loads` is left out. A parsed reply is a record of optional fields for the keys the code reads. JSON null, floats and other value types, and a reply that parses to something other than an object, are not modelled.
- The exception log line printed in `_call_gemini` is left out.
- Unicode handling beyond the `isspace` set used by `strip()` is left out. Characters are Dafny `char`s.
- `Progress.ThreeAdvancesReachBehavioral`: it counts advancing turns over a run. It does not say which turn carries the behavioural question. `Progress.AdvancingStep` says that.

## Findings

| source | as written | input that shows it | evidently intended | confidence | as-written member | corrected member |
|---|---|---|---|---|---|---|
| interviewer.py:178 | the feedback log's `full_transcript` is `self.conversation_history`, which nothing ever appends to (it starts empty at interviewer.py:50) | any complete interview, e.g. a start followed by three UNCERTAIN turns and one behavioural answer: the chat holds at least the greeting, case study and first question, yet the log's transcript is `[]` (`Progress.LoggedTranscriptAlwaysEmpty`) | the log records the chat transcript held in `st.session_state.messages` | not executed | `Interviewer.GenerateFinalReport` and `App.ShowReport` (exhibited by `Progress.LoggedTranscriptAlwaysEmpty`) | `Interviewer.GenerateFinalReportWithTranscript` and `App.ShowReportWithTranscript` (proved by `Progress.ReportLogsTranscript`) |

=== FILE: app.dfy ===
/**
 * The stage controller of the chat front end, lifted out of the UI's session
 * storage into an explicit session value. Every transition is a pure function
 * of the session and of the oracle's replies for that step.
 */
module App {
  import opened Wrappers
  import opened Oracle
  import opened SkillProfile
  import opened Interviewer

  datatype Stage = Start | TechnicalInterview | BehavioralInterview | Report

  /** The position of a stage in the interview's forward order. */
  function Rank(stage: Stage): nat {
    match stage
    case Start => 0
    case TechnicalInterview => 1
    case BehavioralInterview => 2
    case Report => 3
  }

  /** The session-state variables `stage`, `messages`, `agent`, `current_question` and `current_skill`. */
  datatype Session = Session(
    stage: Stage,
    messages: seq<Message>,
    agent: Option<Agent>,
    currentQuestion: Option<string>,
    currentSkill: Option<Skill>)

  /** The four ways the intent label is read: the three exact labels and anything else. */
  datatype Intent = Answering | HintRequest | Uncertain | Unrecognised

  const AnsweringLabel: string := "ANSWERING"
  const HintLabel: string := "HINT_REQUEST"
  const UncertainLabel: string := "UNCERTAIN"

  /** Exact, case-sensitive comparison against the three labels. */
  function Classify(word: string): Intent {
    if word == AnsweringLabel then Answering
    else if word == HintLabel then HintRequest
    else if word == UncertainLabel then Uncertain
    else Unrecognised
  }

  /** Each intent is read from exactly its own label, and every other word is Unrecognised. */
  lemma ClassifyExact(word: string)
    ensures Classify(word) == Answering <==> word == AnsweringLabel
    ensures Classify(word) == HintRequest <==> word == HintLabel
    ensures Classify(word) == Uncertain <==> word == UncertainLabel
    ensures Classify(word) == Unrecognised <==> word !in {AnsweringLabel, HintLabel, UncertainLabel}
  {
  }

  /**
   * The oracle's replies available to one step. A step uses only some of
   * them: the intent, then the evaluation, the hint or the next question.
   */
  datatype OracleAnswers = OracleAnswers(intent: TextReply, evaluation: JsonReply, hint: TextReply, question: TextReply)

  const TransitionText: string := "Great, that concludes the technical case study. Let's move on to one final behavioral question."
  const HintPrefix: string := "Of course. Here's a hint: "
  const SkipText: string := "No problem, let's move on."

  const GreetingOpen: string := "Hello "
  const GreetingRole: string := "! Welcome to the interview. The role is set to "
  const FullStop: string := "."

  function Greeting(name: string, role: string): string {
    GreetingOpen + name + GreetingRole + role + FullStop
  }

  /** The greeting addresses the candidate by name and ends by stating the role. */
  lemma GreetingNamesCandidate(name: string, role: string)
    ensures var g := Greeting(name, role);
      && |g| == |GreetingOpen| + |name| + |GreetingRole| + |role| + 1
      && g[..|GreetingOpen|] == GreetingOpen
      && g[|GreetingOpen|..|GreetingOpen| + |name|] == name
      && g[|g| - 1 - |role|..|g| - 1] == role
      && g[|g| - 1] == '.'
  {
  }

  /** There is an agent and its profile has every skill. */
  predicate HasAgent(s: Session) {
    s.agent.Some? && HasAllSkills(s.agent.value.profile)
  }

  function ProfileOf(s: Session): Profile
    requires HasAgent(s)
  {
    s.agent.value.profile
  }

  /**
   * What the handlers rely on so that no dictionary lookup fails: past the
   * start screen there is an agent, and during the technical stage a current skill.
   */
  predicate WellFormed(s: Session) {
    && (s.stage != Start ==> HasAgent(s))
    && (s.stage == TechnicalInterview ==> s.currentSkill.Some?)
  }

  /**
   * `ask_behavioral_question`: announces the last question, asks it and makes
   * it the current question.
   */
  function AskBehavioralQuestion(s: Session, question: TextReply): (r: Session)
    ensures r.messages == s.messages + [Message(Assistant, TransitionText), Message(Assistant, CallText(question))]
    ensures r.currentQuestion == Some(CallText(question))
    ensures r == s.(messages := r.messages, currentQuestion := r.currentQuestion)
  {
    var q := CallText(question);
    s.(messages := s.messages + [Message(Assistant, TransitionText), Message(Assistant, q)],
       currentQuestion := Some(q))
  }

  /**
   * `ask_next_technical_question`: asks about the first Untested technical
   * skill in the fixed order, or moves to the behavioural stage when there is none.
   */
  function AskNextTechnicalQuestion(s: Session, question: TextReply): (r: Session)
    requires HasAgent(s)
    ensures r.agent == s.agent
    ensures s.messages < r.messages
    ensures NextUntested(ProfileOf(s)).Some? ==>
      && r.stage == s.stage
      && r.currentSkill == NextUntested(ProfileOf(s))
      && r.messages == s.messages + [Message(Assistant, CallText(question))]
      && r.currentQuestion == Some(CallText(question))
    ensures NextUntested(ProfileOf(s)).None? ==>
      && r.stage == BehavioralInterview
      && r.currentSkill == s.currentSkill
      && r.messages == s.messages + [Message(Assistant, TransitionText), Message(Assistant, CallText(question))]
      && r.currentQuestion == Some(CallText(question))
  {
    match NextUntested(ProfileOf(s))
    case Some(skill) =>
      var q := CallText(question);
      s.(currentSkill := Some(skill), currentQuestion := Some(q),
         messages := s.messages + [Message(Assistant, q)])
    case None =>
      AskBehavioralQuestion(s.(stage := BehavioralInterview), question)
  }

  /**
   * `start_interview`: without an API key the constructor's ValueError is
   * caught and only the stage is set back to the start; otherwise a new agent
   * with the role, a fresh transcript of greeting and case study, and the
   * first technical question.
   */
  function StartInterview(s: Session, name: string, role: string, apiKey: Option<string>,
                          caseStudy: JsonReply, question: TextReply): (r: Session)
    ensures !KeyConfigured(apiKey) ==> r == s.(stage := Start)
    ensures KeyConfigured(apiKey) ==>
      && r.stage == TechnicalInterview
      && HasAgent(r)
      && r.agent.value.candidateName == name
      && r.agent.value.interviewRole == Some(role)
      && (forall k :: k in ProfileOf(r) ==> ProfileOf(r)[k].status == Untested)
      && r.currentSkill == Some(DataCleaning)
      && r.agent.value.caseStudy == Some(CallJson(caseStudy))
      && r.agent.value.history == []
      && |r.messages| == 3
      && r.messages[0] == Message(Assistant, Greeting(name, role))
      && r.messages[1].role == Assistant && CaseStudyLead <= r.messages[1].content
      && r.messages[2] == Message(Assistant, CallText(question))
      && r.currentQuestion == Some(CallText(question))
    ensures WellFormed(r)
  {
    match NewAgent(name, apiKey)
    case Failure(_) => s.(stage := Start)
    case Success(created) =>
      var intro := IntroduceCaseStudy(created.(interviewRole := Some(role)), caseStudy);
      var s1 := s.(agent := Some(intro.agent),
                   messages := [Message(Assistant, Greeting(name, role)), Message(Assistant, intro.reply)],
                   stage := TechnicalInterview);
      NextUntestedAtFrontier(intro.agent.profile);
      AskNextTechnicalQuestion(s1, question)
  }

  /**
   * The session is at the question `ask_next_technical_question` picks for its
   * profile: still technical, on the first Untested skill, exactly while one remains.
   */
  predicate AtNextQuestion(s: Session) {
    && HasAgent(s)
    && (s.stage == TechnicalInterview <==> NextUntested(ProfileOf(s)).Some?)
    && (s.stage == TechnicalInterview ==> s.currentSkill == NextUntested(ProfileOf(s)))
  }

  /**
   * After the transcript `before`, the bot's `reply` was appended and then the
   * question `q` was asked: directly while the stage is technical, after the
   * transition text once it turned behavioural; `q` is the current question.
   */
  predicate RepliedThenAsked(before: seq<Message>, r: Session, reply: string, q: string) {
    && r.currentQuestion == Some(q)
    && (r.stage == TechnicalInterview ==>
          r.messages == before + [Message(Assistant, reply), Message(Assistant, q)])
    && (r.stage == BehavioralInterview ==>
          r.messages == before + [Message(Assistant, reply), Message(Assistant, TransitionText), Message(Assistant, q)])
  }

  /**
   * The common tail of the ANSWERING and UNCERTAIN branches: install the updated
   * agent, append the bot's reply, then ask the next question.
   */
  function ReplyAndAdvance(s: Session, agent: Agent, reply: string, question: TextReply): (r: Session)
    requires s.stage == TechnicalInterview && HasAllSkills(agent.profile)
    ensures WellFormed(r) && r.agent == Some(agent)
    ensures s.messages + [Message(Assistant, reply)] < r.messages
    ensures r.stage == TechnicalInterview || r.stage == BehavioralInterview
    ensures AtNextQuestion(r)
    ensures RepliedThenAsked(s.messages, r, reply, CallText(question))
  {
    AskNextTechnicalQuestion(s.(agent := Some(agent), messages := s.messages + [Message(Assistant, reply)]), question)
  }

  /**
   * The technical-stage branch of `handle_user_response` on the trimmed intent
   * label; `s` already ends with the candidate's message. A label other than the
   * three exact ones changes nothing.
   */
  function RespondTechnical(s: Session, prompt: string, oracle: OracleAnswers): (r: Session)
    requires s.stage == TechnicalInterview && WellFormed(s)
    ensures WellFormed(r) && s.messages <= r.messages
    ensures r.stage == TechnicalInterview || r.stage == BehavioralInterview
    ensures HasAgent(r) && r.agent.value.history == s.agent.value.history
  {
    match Classify(CheckUserIntent(oracle.intent))
    case Answering => Answer(s, prompt, oracle)
    case HintRequest => s.(messages := s.messages + [Message(Assistant, HintPrefix + CallText(oracle.hint))])
    case Uncertain => Skip(s, oracle)
    case Unrecognised => s
  }

  /** The ANSWERING branch: evaluate the answer against the current skill, reply, advance. */
  function Answer(s: Session, prompt: string, oracle: OracleAnswers): (r: Session)
    requires s.stage == TechnicalInterview && WellFormed(s)
    ensures WellFormed(r) && AtNextQuestion(r) && s.messages < r.messages
    ensures r.stage == TechnicalInterview || r.stage == BehavioralInterview
    ensures r.agent.value.history == s.agent.value.history
    ensures var k := s.currentSkill.value;
      var e := CallJson(oracle.evaluation);
      && ProfileOf(r)[k].status == Assessed
      && ProfileOf(r)[k].score == e.score.GetOr(0)
      && ProfileOf(r)[k].efficiency == Some(e.efficiencyScore.GetOr(0))
      && (forall j :: j != k ==> ProfileOf(r)[j] == ProfileOf(s)[j])
      && r.agent.value == s.agent.value.(profile := ProfileOf(r))
      && s.messages + [Message(Assistant, e.botResponse.GetOr(DefaultTechnicalReply))] < r.messages
      && RepliedThenAsked(s.messages, r, e.botResponse.GetOr(DefaultTechnicalReply), CallText(oracle.question))
  {
    var e := EvaluateTechnicalAnswer(s.agent.value, Show(s.currentQuestion), prompt, s.currentSkill.value, oracle.evaluation);
    ReplyAndAdvance(s, e.agent, e.reply, oracle.question)
  }

  /** The UNCERTAIN branch: mark the current skill Skipped, acknowledge, advance. */
  function Skip(s: Session, oracle: OracleAnswers): (r: Session)
    requires s.stage == TechnicalInterview && WellFormed(s)
    ensures WellFormed(r) && AtNextQuestion(r) && s.messages < r.messages
    ensures r.stage == TechnicalInterview || r.stage == BehavioralInterview
    ensures r.agent.value.history == s.agent.value.history
    ensures var k := s.currentSkill.value;
      && ProfileOf(r) == ProfileOf(s)[k := ProfileOf(s)[k].(status := Skipped)]
      && r.agent.value == s.agent.value.(profile := ProfileOf(r))
      && s.messages + [Message(Assistant, SkipText)] < r.messages
      && RepliedThenAsked(s.messages, r, SkipText, CallText(oracle.question))
  {
    var agent := s.agent.value;
    var skipped := agent.(profile := SetStatus(agent.profile, s.currentSkill.value, Skipped));
    ReplyAndAdvance(s, skipped, SkipText, oracle.question)
  }

  /**
   * The behavioural-stage branch of `handle_user_response`: evaluate the answer
   * to the current question, thank the candidate and move to the report.
   */
  function RespondBehavioral(s: Session, prompt: string, oracle: OracleAnswers): (r: Session)
    requires s.stage == BehavioralInterview && HasAgent(s)
    ensures r.stage == Report && HasAgent(r) && r.agent.value.history == s.agent.value.history
    ensures r.messages == s.messages + [Message(Assistant, BehavioralReply)]
  {
    var e := EvaluateBehavioralAnswer(s.agent.value, Show(s.currentQuestion), prompt, oracle.evaluation);
    s.(agent := Some(e.agent), messages := s.messages + [Message(Assistant, e.reply)], stage := Report)
  }

  /**
   * `handle_user_response`: the candidate's message is appended first; then the
   * technical stage branches on the intent, the behavioural stage evaluates and
   * moves to the report, and any other stage does nothing more.
   */
  function HandleUserResponse(s: Session, prompt: string, oracle: OracleAnswers): (r: Session)
    requires WellFormed(s)
    ensures WellFormed(r)
    ensures s.messages + [Message(User, prompt)] <= r.messages
    ensures Rank(s.stage) <= Rank(r.stage)
    ensures s.stage != Start ==> HasAgent(r) && r.agent.value.history == s.agent.value.history
  {
    var s1 := s.(messages := s.messages + [Message(User, prompt)]);
    match s.stage
    case TechnicalInterview => RespondTechnical(s1, prompt, oracle)
    case BehavioralInterview => RespondBehavioral(s1, prompt, oracle)
    case _ => s1
  }

  /**
   * The report screen as written: `generate_final_report` on the session's
   * agent, which logs the agent's `conversation_history`.
   */
  function ShowReport(s: Session, reply: TextReply, now: real, seconds: nat): (r: FinalReport)
    requires s.stage == Report && HasAgent(s)
    ensures r.log.fullTranscript == s.agent.value.history
    ensures r.report == CallText(reply)
    ensures r.log.finalSkillProfile == ProfileOf(s)
    ensures r.log.candidateName == s.agent.value.candidateName
    ensures r.log.interviewRole == s.agent.value.interviewRole && r.log.timestamp == now
    ensures r.filename == LogFilename(s.agent.value.candidateName, seconds)
  {
    GenerateFinalReport(s.agent.value, reply, now, seconds)
  }

  /**
   * The report screen corrected to log the session's chat transcript (see
   * `GenerateFinalReportWithTranscript`).
   */
  function ShowReportWithTranscript(s: Session, reply: TextReply, now: real, seconds: nat): (r: FinalReport)
    requires s.stage == Report && HasAgent(s)
    ensures r.log.fullTranscript == s.messages
    ensures r.report == CallText(reply)
    ensures r.log.finalSkillProfile == ProfileOf(s)
    ensures r.log.candidateName == s.agent.value.candidateName
    ensures r.log.interviewRole == s.agent.value.interviewRole && r.log.timestamp == now
    ensures r.filename == LogFilename(s.agent.value.candidateName, seconds)
  {
    GenerateFinalReportWithTranscript(s.agent.value, s.messages, reply, now, seconds)
  }
}

=== FILE: interviewer.dfy ===
/**
 * The interview agent: its skill profile and the operations that read the
 * oracle's replies and write the profile. Each oracle call is a reply
 * parameter (see `Oracle`); the prompt text sent with it is not modelled.
 */
module Interviewer {
  import opened Wrappers
  import opened Text
  import opened Oracle
  import opened SkillProfile

  datatype Speaker = Assistant | User

  /** One chat entry, `{"role": ..., "content": ...}`. */
  datatype Message = Message(role: Speaker, content: string)

  /** The agent's state; `history` is `conversation_history`. */
  datatype Agent = Agent(
    candidateName: string,
    interviewRole: Option<string>,
    profile: Profile,
    caseStudy: Option<JsonObject>,
    history: seq<Message>)

  /** The ValueError raised when no API key is configured. */
  datatype ConfigurationError = ApiKeyNotConfigured

  /** Python truthiness of the key: missing and empty both count as not configured. */
  predicate KeyConfigured(apiKey: Option<string>) {
    apiKey.Some? && apiKey.value != ""
  }

  /** The constructor: refuses without a key, otherwise starts with the fresh profile and no role. */
  function NewAgent(name: string, apiKey: Option<string>): (r: Result<Agent, ConfigurationError>)
    ensures r.Failure? <==> !KeyConfigured(apiKey)
    ensures r.Success? ==> r.value.candidateName == name && r.value.interviewRole.None?
    ensures r.Success? ==> r.value.caseStudy.None? && r.value.history == []
    ensures r.Success? ==> HasAllSkills(r.value.profile)
    ensures r.Success? ==> forall k :: k in r.value.profile ==> r.value.profile[k].status == Untested
  {
    if !KeyConfigured(apiKey) then Failure(ApiKeyNotConfigured)
    else Success(Agent(name, None, FreshProfile(), None, []))
  }

  /** A fresh agent's profile holds exactly the four skills in their initial state. */
  lemma NewAgentProfile(name: string, apiKey: Option<string>)
    requires KeyConfigured(apiKey)
    ensures var p := NewAgent(name, apiKey).value.profile;
      && p.Keys == {DataCleaning, DataAnalysis, DataSummarization, Behavioral}
      && (forall k :: k in p ==> p[k].score == 0 && p[k].evidence == "")
      && p[DataCleaning].efficiency == Some(0)
      && p[DataAnalysis].efficiency == Some(0)
      && p[DataSummarization].efficiency == Some(0)
      && p[Behavioral].efficiency.None?
  {
    var p := NewAgent(name, apiKey).value.profile;
    assert p == FreshProfile();
    assert IsTechnical(DataCleaning) && IsTechnical(DataAnalysis) && IsTechnical(DataSummarization);
    assert forall k :: k in p.Keys ==> k in {DataCleaning, DataAnalysis, DataSummarization, Behavioral};
  }

  // ---------------------------------------------------------------------
  // Free-text oracle calls
  // ---------------------------------------------------------------------

  /** `_check_user_intent`: the oracle's label with surrounding whitespace removed. */
  function CheckUserIntent(reply: TextReply): string {
    Strip(CallText(reply))
  }

  /** The label the classifier compares never starts or ends with whitespace. */
  lemma IntentTrimmed(reply: TextReply)
    ensures Trimmed(CheckUserIntent(reply))
  {
    StripSpec(CallText(reply));
  }

  /** A label padded with whitespace on either side is read as the bare label. */
  lemma PaddedIntentRecognised(before: string, word: string, after: string)
    requires AllSpace(before) && AllSpace(after) && Trimmed(word)
    ensures CheckUserIntent(Text(before + word + after)) == word
  {
    StripUnique(before, word, after);
  }

  /** When the intent call fails, the label is the apology text, which is none of the three intents. */
  lemma FailedIntentCall()
    ensures CheckUserIntent(TextFailed) == SystemErrorText
  {
    assert Trimmed(SystemErrorText) by {
      assert SystemErrorText[0] == 'M' && SystemErrorText[|SystemErrorText| - 1] == '.';
    }
    StripKeepsTrimmed(SystemErrorText);
  }

  // ---------------------------------------------------------------------
  // Structured evaluations
  // ---------------------------------------------------------------------

  /** An agent together with the text it replies to the candidate. */
  datatype Evaluated = Evaluated(agent: Agent, reply: string)

  const QuestionLabel: string := "Q: "
  const AnswerLabel: string := "\nA: "
  const EvalLabel: string := "\nEval: "
  /** The label as the source spells it. */
  const EfficiencyLabel: string := "\nEfficency: "

  /** The evidence text common to both kinds of evaluation. */
  function EvidenceHeader(question: string, answer: string): string {
    QuestionLabel + question + AnswerLabel + answer
  }

  const DefaultTechnicalReply: string := "Okay, thank you for that."
  const BehavioralReply: string := "Thank you for sharing that."

  /**
   * `_evaluate_technical_answer`: the named skill's record is overwritten with
   * status Assessed and the oracle's scores (0 for a missing key, no range
   * check), whatever its status was; the reply is the oracle's `bot_response`
   * or the default.
   */
  function EvaluateTechnicalAnswer(agent: Agent, question: string, answer: string, skill: Skill, reply: JsonReply): (r: Evaluated)
    requires skill in agent.profile
    ensures r.agent == agent.(profile := r.agent.profile)
    ensures r.agent.profile.Keys == agent.profile.Keys
    ensures forall k :: k in agent.profile && k != skill ==> r.agent.profile[k] == agent.profile[k]
    ensures r.agent.profile[skill].status == Assessed
    ensures r.agent.profile[skill].score == CallJson(reply).score.GetOr(0)
    ensures r.agent.profile[skill].efficiency == Some(CallJson(reply).efficiencyScore.GetOr(0))
    ensures EvidenceHeader(question, answer) <= r.agent.profile[skill].evidence
    ensures r.reply == CallJson(reply).botResponse.GetOr(DefaultTechnicalReply)
  {
    var e := CallJson(reply);
    var evidence := EvidenceHeader(question, answer)
      + EvalLabel + Show(e.justification)
      + EfficiencyLabel + Show(e.efficiencyJustification);
    var record := SkillRecord(Assessed, e.score.GetOr(0), Some(e.efficiencyScore.GetOr(0)), evidence);
    Evaluated(agent.(profile := agent.profile[skill := record]), e.botResponse.GetOr(DefaultTechnicalReply))
  }

  /**
   * `evaluate_behavioral_answer`: only the behavioural record changes, to status
   * Assessed with the oracle's score (0 if missing); its efficiency entry is
   * left as it was; the reply is always the same thanks.
   */
  function EvaluateBehavioralAnswer(agent: Agent, question: string, answer: string, reply: JsonReply): (r: Evaluated)
    requires Behavioral in agent.profile
    ensures r.agent == agent.(profile := r.agent.profile)
    ensures r.agent.profile.Keys == agent.profile.Keys
    ensures forall k :: k in agent.profile && k != Behavioral ==> r.agent.profile[k] == agent.profile[k]
    ensures r.agent.profile[Behavioral].status == Assessed
    ensures r.agent.profile[Behavioral].score == CallJson(reply).score.GetOr(0)
    ensures r.agent.profile[Behavioral].efficiency == agent.profile[Behavioral].efficiency
    ensures EvidenceHeader(question, answer) <= r.agent.profile[Behavioral].evidence
    ensures r.reply == BehavioralReply
  {
    var e := CallJson(reply);
    var prior := agent.profile[Behavioral];
    var evidence := EvidenceHeader(question, answer) + EvalLabel + Show(e.justification);
    var record := prior.(status := Assessed, score := e.score.GetOr(0), evidence := evidence);
    Evaluated(agent.(profile := agent.profile[Behavioral := record]), BehavioralReply)
  }

  /**
   * A failed structured call still assesses the skill: score 0, efficiency 0,
   * "None" in place of both justifications, and the default reply.
   */
  lemma FailedTechnicalEvaluation(agent: Agent, question: string, answer: string, skill: Skill)
    requires skill in agent.profile
    ensures var r := EvaluateTechnicalAnswer(agent, question, answer, skill, JsonFailed);
      && r.agent.profile[skill]
         == SkillRecord(Assessed, 0, Some(0), EvidenceHeader(question, answer) + EvalLabel + NoneText + EfficiencyLabel + NoneText)
      && r.reply == DefaultTechnicalReply
  {
  }

  /** A failed behavioural evaluation assesses Behavioral with score 0. */
  lemma FailedBehavioralEvaluation(agent: Agent, question: string, answer: string)
    requires Behavioral in agent.profile
    ensures var r := EvaluateBehavioralAnswer(agent, question, answer, JsonFailed);
      && r.agent.profile[Behavioral].status == Assessed
      && r.agent.profile[Behavioral].score == 0
      && r.agent.profile[Behavioral].evidence == EvidenceHeader(question, answer) + EvalLabel + NoneText
  {
  }

  /**
   * The evaluated record does not depend on the record it replaces: two agents
   * that differ only in that record end up identical.
   */
  lemma {:induction false} TechnicalEvaluationOverwrites(agent: Agent, other: SkillRecord, question: string, answer: string, skill: Skill, reply: JsonReply)
    requires skill in agent.profile
    ensures var before := agent.(profile := agent.profile[skill := other]);
      EvaluateTechnicalAnswer(before, question, answer, skill, reply)
      == EvaluateTechnicalAnswer(agent, question, answer, skill, reply)
  {
    var before := agent.(profile := agent.profile[skill := other]);
    var a := EvaluateTechnicalAnswer(before, question, answer, skill, reply);
    var b := EvaluateTechnicalAnswer(agent, question, answer, skill, reply);
    assert a.agent.profile == b.agent.profile by {
      assert a.agent.profile.Keys == b.agent.profile.Keys;
      forall k | k in a.agent.profile ensures a.agent.profile[k] == b.agent.profile[k] {
      }
    }
  }

  /** The technical evidence is the behavioural evidence for the same texts followed by the efficiency note. */
  lemma TechnicalEvidenceExtendsBehavioral(agent: Agent, question: string, answer: string, reply: JsonReply)
    requires Behavioral in agent.profile && DataCleaning in agent.profile
    ensures var t := EvaluateTechnicalAnswer(agent, question, answer, DataCleaning, reply);
      var b := EvaluateBehavioralAnswer(agent, question, answer, reply);
      t.agent.profile[DataCleaning].evidence
      == b.agent.profile[Behavioral].evidence + EfficiencyLabel + Show(CallJson(reply).efficiencyJustification)
  {
  }

  // ---------------------------------------------------------------------
  // Case study introduction
  // ---------------------------------------------------------------------

  const CaseStudyLead: string := "Okay, let's dive into a practical case study.\n\n**Scenario:** "
  const DatasetLabel: string := "\n\n**Dataset:** "
  const CaseStudyClose: string := "\n\nLet's tackle this in a few steps. First, let's talk about cleaning this data."

  /** `_introduce_case_study`: stores the oracle's object and renders it into the introduction text. */
  function IntroduceCaseStudy(agent: Agent, reply: JsonReply): (r: Evaluated)
    ensures r.agent == agent.(caseStudy := Some(CallJson(reply)))
    ensures CaseStudyLead <= r.reply
  {
    var cs := CallJson(reply);
    Evaluated(agent.(caseStudy := Some(cs)),
      CaseStudyLead + Show(cs.scenario)
      + DatasetLabel + Show(cs.datasetDescription)
      + CaseStudyClose)
  }

  /** A failed case-study call is introduced with "None" for both the scenario and the dataset. */
  lemma FailedCaseStudyIntro(agent: Agent)
    ensures IntroduceCaseStudy(agent, JsonFailed).reply
      == CaseStudyLead + NoneText + DatasetLabel + NoneText + CaseStudyClose
  {
  }

  /** A parsed case study's scenario text follows the lead-in directly, and the introduction ends with the closing line. */
  lemma CaseStudyScenarioShown(agent: Agent, obj: JsonObject)
    requires obj.scenario.Some?
    ensures var r := IntroduceCaseStudy(agent, Parsed(obj)).reply;
      var n := |CaseStudyLead|;
      && |r| >= n + |obj.scenario.value| + |CaseStudyClose|
      && r[n..n + |obj.scenario.value|] == obj.scenario.value
      && r[|r| - |CaseStudyClose|..] == CaseStudyClose
  {
  }

  // ---------------------------------------------------------------------
  // The feedback log written by generate_final_report
  // ---------------------------------------------------------------------

  const LogPrefix: string := "interview_log_"
  const LogSuffix: string := ".json"

  /** The log file's name for a candidate and the whole seconds of the clock reading. */
  function LogFilename(candidateName: string, seconds: nat): (f: string)
    ensures LogPrefix <= f
    ensures f[|f| - |LogSuffix|..] == LogSuffix
    ensures |f| == |LogPrefix| + |candidateName| + 1 + |NatToString(seconds)| + |LogSuffix|
  {
    LogPrefix + SpacesToUnderscores(candidateName) + "_" + NatToString(seconds) + LogSuffix
  }

  /**
   * Reads a log file name back into the name part and the seconds: the name part
   * runs to the last "_" before ".json" and the seconds are the digits after it.
   */
  function ParseLogFilename(f: string): Option<(string, nat)> {
    if |f| < |LogPrefix| + |LogSuffix| || f[..|LogPrefix|] != LogPrefix || f[|f| - |LogSuffix|..] != LogSuffix then
      None
    else
      ParseMiddle(f[|LogPrefix|..|f| - |LogSuffix|])
  }

  /** The part of a log file name between the prefix and ".json", split at its last "_". */
  function ParseMiddle(middle: string): Option<(string, nat)> {
    match LastIndexOf(middle, '_')
    case None => None
    case Some(k) =>
      var digits := middle[k + 1..];
      if |digits| == 0 || !AllDigits(digits) then None
      else Some((middle[..k], ParseNat(digits)))
  }

  /** The last "_" of `name + "_" + digits` is the separator when `digits` has none. */
  lemma SeparatorIsLastUnderscore(name: string, digits: string)
    requires Lacks(digits, '_')
    ensures LastIndexOf(name + "_" + digits, '_') == Some(|name|)
  {
    var middle := name + "_" + digits;
    assert middle[|name|] == '_';
    assert middle[|name| + 1..] == digits;
    LastIndexOfFindsLastHit(middle, '_', |name|);
  }

  lemma DecimalHasNoUnderscore(n: nat)
    ensures Lacks(NatToString(n), '_')
  {
    var digits := NatToString(n);
    forall i | 0 <= i < |digits| ensures digits[i] != '_' {
      assert IsDigit(digits[i]);
    }
  }

  /** The middle part splits at the separator into the name part and the value of the digits. */
  lemma ParseMiddleSeparated(name: string, digits: string)
    requires |digits| > 0 && AllDigits(digits) && Lacks(digits, '_')
    ensures ParseMiddle(name + "_" + digits) == Some((name, ParseNat(digits)))
  {
    var middle := name + "_" + digits;
    SeparatorIsLastUnderscore(name, digits);
    assert middle[|name| + 1..] == digits;
    assert middle[..|name|] == name;
  }

  /** The prefix and ".json" of a framed middle part are recognised and the middle part is recovered. */
  lemma LogFrameRecognised(middle: string)
    ensures ParseLogFilename(LogPrefix + middle + LogSuffix) == ParseMiddle(middle)
  {
    var f := LogPrefix + middle + LogSuffix;
    assert f[..|LogPrefix|] == LogPrefix;
    assert f[|f| - |LogSuffix|..] == LogSuffix;
    assert f[|LogPrefix|..|f| - |LogSuffix|] == middle;
  }

  /** Parsing finds the name part and the digits around the last "_". */
  lemma ParseSeparated(name: string, digits: string)
    requires |digits| > 0 && AllDigits(digits) && Lacks(digits, '_')
    ensures ParseLogFilename(LogPrefix + (name + "_" + digits) + LogSuffix) == Some((name, ParseNat(digits)))
  {
    LogFrameRecognised(name + "_" + digits);
    ParseMiddleSeparated(name, digits);
  }

  /** The name part and the seconds can be read back from the file name. */
  lemma LogFilenameRoundTrip(candidateName: string, seconds: nat)
    ensures ParseLogFilename(LogFilename(candidateName, seconds)) == Some((SpacesToUnderscores(candidateName), seconds))
  {
    var name := SpacesToUnderscores(candidateName);
    var digits := NatToString(seconds);
    assert LogFilename(candidateName, seconds) == LogPrefix + (name + "_" + digits) + LogSuffix;
    DecimalHasNoUnderscore(seconds);
    ParseSeparated(name, digits);
    ParseNatToString(seconds);
  }

  /** Two log names are equal only for the same seconds and the same name after space replacement. */
  lemma LogFilenameDistinguishes(name1: string, seconds1: nat, name2: string, seconds2: nat)
    requires LogFilename(name1, seconds1) == LogFilename(name2, seconds2)
    ensures seconds1 == seconds2
    ensures SpacesToUnderscores(name1) == SpacesToUnderscores(name2)
  {
    LogFilenameRoundTrip(name1, seconds1);
    LogFilenameRoundTrip(name2, seconds2);
  }

  /** Names that differ only in spaces versus underscores share a log file name. */
  lemma LogFilenameCollision(seconds: nat)
    ensures LogFilename("A B", seconds) == LogFilename("A_B", seconds)
  {
    var spaced := SpacesToUnderscores("A B");
    var plain := SpacesToUnderscores("A_B");
    assert spaced == "A_B" by {
      assert |spaced| == 3 && spaced[0] == 'A' && spaced[1] == '_' && spaced[2] == 'B';
    }
    assert plain == "A_B" by {
      assert |plain| == 3 && plain[0] == 'A' && plain[1] == '_' && plain[2] == 'B';
    }
  }

  /** The record `generate_final_report` dumps as JSON. */
  datatype FeedbackLog = FeedbackLog(
    candidateName: string,
    interviewRole: Option<string>,
    finalSkillProfile: Profile,
    aiGeneratedReport: string,
    fullTranscript: seq<Message>,
    timestamp: real)

  /** What `generate_final_report` produces: the report text, the log record and its file name. */
  datatype FinalReport = FinalReport(report: string, log: FeedbackLog, filename: string)

  /**
   * `generate_final_report` as written: the transcript it logs is the agent's
   * `conversation_history`. `now` is the first clock reading, `seconds` the
   * whole seconds of the second one.
   */
  function GenerateFinalReport(agent: Agent, reply: TextReply, now: real, seconds: nat): (r: FinalReport)
    ensures r.report == CallText(reply) && r.log.aiGeneratedReport == r.report
    ensures r.log.finalSkillProfile == agent.profile
    ensures r.log.fullTranscript == agent.history
    ensures r.log.candidateName == agent.candidateName && r.log.interviewRole == agent.interviewRole
    ensures r.log.timestamp == now
    ensures r.filename == LogFilename(agent.candidateName, seconds)
  {
    var report := CallText(reply);
    FinalReport(report,
      FeedbackLog(agent.candidateName, agent.interviewRole, agent.profile, report, agent.history, now),
      LogFilename(agent.candidateName, seconds))
  }

  /**
   * `generate_final_report` logging the chat transcript it is given instead of
   * the agent's never-written `conversation_history`.
   */
  function GenerateFinalReportWithTranscript(agent: Agent, transcript: seq<Message>, reply: TextReply, now: real, seconds: nat): (r: FinalReport)
    ensures r.log.fullTranscript == transcript
    ensures r.report == CallText(reply) && r.log.aiGeneratedReport == r.report
    ensures r.log.finalSkillProfile == agent.profile
    ensures r.log.candidateName == agent.candidateName && r.log.interviewRole == agent.interviewRole
    ensures r.log.timestamp == now
    ensures r.filename == LogFilename(agent.candidateName, seconds)
  {
    var asWritten := GenerateFinalReport(agent, reply, now, seconds);
    asWritten.(log := asWritten.log.(fullTranscript := transcript))
  }
}

=== FILE: oracle.dfy ===
/**
 * The language model as an oracle. Every call the interviewer makes becomes a
 * reply value supplied from outside; `_call_gemini`'s own logic is the
 * fallback it substitutes when the call fails.
 */
module Oracle {
  import opened Wrappers

  /** The reply to a free-text request: the model's text, or a failure of any kind. */
  datatype TextReply = Text(text: string) | TextFailed

  /**
   * The parsed JSON object of a structured reply, restricted to the keys the
   * interviewer reads; a key that is absent is `None`.
   */
  datatype JsonObject = JsonObject(
    score: Option<int>,
    efficiencyScore: Option<int>,
    justification: Option<string>,
    efficiencyJustification: Option<string>,
    botResponse: Option<string>,
    scenario: Option<string>,
    datasetDescription: Option<string>,
    error: Option<string>)

  /** The reply to a structured request: a parsed object, or a model or JSON failure. */
  datatype JsonReply = Parsed(obj: JsonObject) | JsonFailed

  /**
   * What a failed free-text call returns instead of the model's text. It is
   * written in pieces so that the verifier can see its first and last characters.
   */
  const SystemErrorText: string := "My apologies, " + "there was a system error. " + "Let's move on."

  /** What a failed structured call returns: an object whose only key is "error". */
  const ErrorObject: JsonObject :=
    JsonObject(None, None, None, None, None, None, None, Some(ErrorMessage))

  const ErrorMessage: string := "Failed to get a valid response from the model."

  /** `_call_gemini(prompt)`: the model's text, or the apology when the call fails. */
  function CallText(reply: TextReply): (t: string)
    ensures reply.Text? ==> t == reply.text
    ensures reply.TextFailed? ==> t == SystemErrorText
  {
    match reply
    case Text(s) => s
    case TextFailed => SystemErrorText
  }

  /** `_call_gemini(prompt, is_json=True)`: the parsed object, or the error object when the call fails. */
  function CallJson(reply: JsonReply): (o: JsonObject)
    ensures reply.Parsed? ==> o == reply.obj
    ensures reply.JsonFailed? ==> o.error.Some? && o.score.None? && o.efficiencyScore.None?
    ensures reply.JsonFailed? ==> o.justification.None? && o.botResponse.None?
    ensures reply.JsonFailed? ==> o.efficiencyJustification.None? && o.scenario.None? && o.datasetDescription.None?
    ensures reply.JsonFailed? ==> o.error == Some(ErrorMessage)
  {
    match reply
    case Parsed(obj) => obj
    case JsonFailed => ErrorObject
  }

  /** How an f-string renders Python's None. */
  const NoneText: string := "None"

  /** How an f-string renders a value that may be Python's None. */
  function Show(v: Option<string>): string {
    v.GetOr(NoneText)
  }
}

=== FILE: progress.dfy ===
/**
 * Properties of whole interviews: sequences of candidate turns fed through
 * `HandleUserResponse`, from the session `StartInterview` produces.
 */
module Progress {
  import opened Wrappers
  import opened Text
  import opened Oracle
  import opened SkillProfile
  import opened Interviewer
  import opened App

  /** One candidate message together with the oracle's replies while it is handled. */
  datatype Turn = Turn(prompt: string, oracle: OracleAnswers)

  function Step(s: Session, t: Turn): (r: Session)
    requires WellFormed(s)
    ensures WellFormed(r)
  {
    HandleUserResponse(s, t.prompt, t.oracle)
  }

  /** The session after handling `turns` in order. */
  function Run(s: Session, turns: seq<Turn>): (r: Session)
    requires WellFormed(s)
    ensures WellFormed(r)
    decreases |turns|
  {
    if |turns| == 0 then s else Run(Step(s, turns[0]), turns[1..])
  }

  /** How the oracle's intent reply for a turn is read. */
  function IntentOf(t: Turn): Intent {
    Classify(CheckUserIntent(t.oracle.intent))
  }

  /** The turn is a recognised, non-hint response in the technical stage. */
  predicate Advances(s: Session, t: Turn) {
    s.stage == TechnicalInterview && (IntentOf(t) == Answering || IntentOf(t) == Uncertain)
  }

  /** The number of turns of the run that advance the technical stage. */
  function AdvanceCount(s: Session, turns: seq<Turn>): nat
    requires WellFormed(s)
    decreases |turns|
  {
    if |turns| == 0 then 0
    else (if Advances(s, turns[0]) then 1 else 0) + AdvanceCount(Step(s, turns[0]), turns[1..])
  }

  /**
   * The invariant of every session reachable from a successful start: the
   * Untested technical skills are a suffix of the fixed order, the stage is
   * technical exactly while one remains and the current skill is the first of
   * them, and Behavioral is Assessed exactly in the report stage.
   */
  predicate Inv(s: Session) {
    && WellFormed(s)
    && (s.stage != Start ==>
          var p := ProfileOf(s);
          && Ordered(p)
          && (s.stage == TechnicalInterview <==> Frontier(p) < 3)
          && (s.stage == TechnicalInterview ==> s.currentSkill == Some(TechnicalSkills[Frontier(p)]))
          && (s.stage == Report ==> p[Behavioral].status == Assessed)
          && (s.stage != Report ==> p[Behavioral].status == Untested))
  }

  // ---------------------------------------------------------------------
  // Single steps
  // ---------------------------------------------------------------------

  /** A successful start establishes the invariant with no technical skill done yet. */
  lemma StartEstablishesInv(s: Session, name: string, role: string, apiKey: Option<string>,
                            caseStudy: JsonReply, question: TextReply)
    requires KeyConfigured(apiKey)
    ensures var r := StartInterview(s, name, role, apiKey, caseStudy, question);
      Inv(r) && r.stage == TechnicalInterview && Frontier(ProfileOf(r)) == 0
  {
  }

  /** Every step appends the candidate's message first; nothing already in the transcript changes. */
  lemma StepAppendsUserMessage(s: Session, t: Turn)
    requires WellFormed(s)
    ensures var r := Step(s, t);
      && s.messages <= r.messages
      && |r.messages| > |s.messages|
      && r.messages[|s.messages|] == Message(User, t.prompt)
  {
    var r := Step(s, t);
    assert (s.messages + [Message(User, t.prompt)])[|s.messages|] == Message(User, t.prompt);
  }

  /** A hint appends exactly the candidate's message and one hint, and changes nothing else. */
  lemma HintStep(s: Session, t: Turn)
    requires WellFormed(s) && s.stage == TechnicalInterview && IntentOf(t) == HintRequest
    ensures Step(s, t) == s.(messages := s.messages
      + [Message(User, t.prompt), Message(Assistant, HintPrefix + CallText(t.oracle.hint))])
  {
  }

  /** A label other than the three exact ones leaves everything but the appended message as it was. */
  lemma UnrecognisedStep(s: Session, t: Turn)
    requires WellFormed(s) && s.stage == TechnicalInterview && IntentOf(t) == Unrecognised
    ensures Step(s, t) == s.(messages := s.messages + [Message(User, t.prompt)])
  {
  }

  /**
   * UNCERTAIN marks the current skill Skipped (its other fields kept), appends
   * the acknowledgement after the candidate's message, and then asks the next
   * question as an answer would: the oracle's question, preceded by the
   * transition text once the stage turned behavioural.
   */
  lemma UncertainStep(s: Session, t: Turn)
    requires WellFormed(s) && s.stage == TechnicalInterview && IntentOf(t) == Uncertain
    ensures var r := Step(s, t);
      var k := s.currentSkill.value;
      var p := ProfileOf(s);
      && AtNextQuestion(r)
      && (r.stage == TechnicalInterview || r.stage == BehavioralInterview)
      && ProfileOf(r) == p[k := p[k].(status := Skipped)]
      && r.agent.value == s.agent.value.(profile := ProfileOf(r))
      && s.messages + [Message(User, t.prompt), Message(Assistant, SkipText)] < r.messages
      && RepliedThenAsked(s.messages + [Message(User, t.prompt)], r, SkipText, CallText(t.oracle.question))
  {
    var u := Message(User, t.prompt);
    assert s.messages + [u] + [Message(Assistant, SkipText)] == s.messages + [u, Message(Assistant, SkipText)];
  }

  /**
   * ANSWERING overwrites the current skill's record with the oracle's scores,
   * keeps the rest of the agent, appends the oracle's reply after the
   * candidate's message, and asks the next question.
   */
  lemma AnsweringStep(s: Session, t: Turn)
    requires WellFormed(s) && s.stage == TechnicalInterview && IntentOf(t) == Answering
    ensures var r := Step(s, t);
      var k := s.currentSkill.value;
      var e := CallJson(t.oracle.evaluation);
      && AtNextQuestion(r)
      && (r.stage == TechnicalInterview || r.stage == BehavioralInterview)
      && ProfileOf(r)[k].status == Assessed
      && ProfileOf(r)[k].score == e.score.GetOr(0)
      && ProfileOf(r)[k].efficiency == Some(e.efficiencyScore.GetOr(0))
      && (forall j :: j != k ==> ProfileOf(r)[j] == ProfileOf(s)[j])
      && r.agent.value == s.agent.value.(profile := ProfileOf(r))
      && s.messages + [Message(User, t.prompt), Message(Assistant, e.botResponse.GetOr(DefaultTechnicalReply))] < r.messages
      && RepliedThenAsked(s.messages + [Message(User, t.prompt)], r, e.botResponse.GetOr(DefaultTechnicalReply),
                          CallText(t.oracle.question))
  {
    var u := Message(User, t.prompt);
    var m := Message(Assistant, CallJson(t.oracle.evaluation).botResponse.GetOr(DefaultTechnicalReply));
    assert s.messages + [u] + [m] == s.messages + [u, m];
  }

  /** In the behavioural stage any response assesses Behavioral and moves to the report. */
  lemma BehavioralStep(s: Session, t: Turn)
    requires WellFormed(s) && s.stage == BehavioralInterview
    ensures var r := Step(s, t);
      && r.stage == Report
      && HasAgent(r)
      && ProfileOf(r)[Behavioral].status == Assessed
      && ProfileOf(r)[Behavioral].score == CallJson(t.oracle.evaluation).score.GetOr(0)
      && (forall j :: j != Behavioral ==> ProfileOf(r)[j] == ProfileOf(s)[j])
      && r.messages == s.messages + [Message(User, t.prompt), Message(Assistant, BehavioralReply)]
  {
    assert s.messages + [Message(User, t.prompt)] + [Message(Assistant, BehavioralReply)]
        == s.messages + [Message(User, t.prompt), Message(Assistant, BehavioralReply)];
  }

  /** In the start and report stages a response is only recorded. */
  lemma IdleStep(s: Session, t: Turn)
    requires WellFormed(s) && (s.stage == Start || s.stage == Report)
    ensures Step(s, t) == s.(messages := s.messages + [Message(User, t.prompt)])
  {
  }

  /**
   * An advancing step moves the frontier on by one: exactly the skill at the
   * frontier leaves Untested, every other record is kept, and the stage turns
   * behavioural exactly when that was the last technical skill.
   */
  lemma AdvancingStep(s: Session, t: Turn)
    requires Inv(s) && Advances(s, t)
    ensures var r := Step(s, t);
      var n := Frontier(ProfileOf(s));
      && Inv(r)
      && Frontier(ProfileOf(r)) == n + 1
      && ProfileOf(r)[TechnicalSkills[n]].status != Untested
      && (forall j :: j != TechnicalSkills[n] ==> ProfileOf(r)[j] == ProfileOf(s)[j])
      && (r.stage == TechnicalInterview <==> n + 1 < 3)
      && (r.stage != TechnicalInterview ==> r.stage == BehavioralInterview)
  {
    var r := Step(s, t);
    var p := ProfileOf(s);
    var n := Frontier(p);
    var k := TechnicalSkills[n];
    assert s.currentSkill.value == k;
    if IntentOf(t) == Answering {
      AnsweringStep(s, t);
    } else {
      UncertainStep(s, t);
    }
    var q := ProfileOf(r);
    FrontierAdvances(p, q);
    NextUntestedAtFrontier(q);
    assert q[Behavioral] == p[Behavioral];
  }

  /** A technical step that does not advance leaves agent, stage, skill and question as they were. */
  lemma StillStep(s: Session, t: Turn)
    requires WellFormed(s) && s.stage == TechnicalInterview && !Advances(s, t)
    ensures var r := Step(s, t);
      && r.agent == s.agent
      && r.stage == s.stage
      && r.currentSkill == s.currentSkill
      && r.currentQuestion == s.currentQuestion
  {
    if IntentOf(t) == HintRequest {
      HintStep(s, t);
    } else {
      UnrecognisedStep(s, t);
    }
  }

  /**
   * Every step keeps the invariant, never touches a record that has left
   * Untested, and moves the frontier on by one exactly when it advances.
   */
  lemma StepPreservesInv(s: Session, t: Turn)
    requires Inv(s)
    ensures var r := Step(s, t);
      && Inv(r)
      && (s.stage != Start ==> r.stage != Start)
      && (s.stage != Start ==> forall k :: ProfileOf(s)[k].status != Untested ==> ProfileOf(r)[k] == ProfileOf(s)[k])
      && (s.stage != Start ==> Frontier(ProfileOf(r)) == Frontier(ProfileOf(s)) + (if Advances(s, t) then 1 else 0))
  {
    var r := Step(s, t);
    match s.stage
    case Start =>
      IdleStep(s, t);
    case Report =>
      IdleStep(s, t);
    case BehavioralInterview =>
      BehavioralStep(s, t);
      assert Frontier(ProfileOf(r)) == Frontier(ProfileOf(s));
    case TechnicalInterview =>
      if Advances(s, t) {
        AdvancingStep(s, t);
      } else {
        StillStep(s, t);
      }
  }

  // ---------------------------------------------------------------------
  // Runs
  // ---------------------------------------------------------------------

  /** Along any run the stage never moves backwards and the transcript only grows. */
  lemma {:induction false} RunMonotone(s: Session, turns: seq<Turn>)
    requires WellFormed(s)
    ensures Rank(s.stage) <= Rank(Run(s, turns).stage)
    ensures s.messages <= Run(s, turns).messages
    ensures |Run(s, turns).messages| >= |s.messages| + |turns|
    decreases |turns|
  {
    if |turns| > 0 {
      var s1 := Step(s, turns[0]);
      StepAppendsUserMessage(s, turns[0]);
      RunMonotone(s1, turns[1..]);
    }
  }

  /**
   * Along a run from an invariant session past the start, the frontier moves
   * on by exactly the number of advancing turns, and records that have left
   * Untested are never touched again.
   */
  lemma {:induction false} RunProgress(s: Session, turns: seq<Turn>)
    requires Inv(s) && s.stage != Start
    ensures var f := Run(s, turns);
      && Inv(f)
      && f.stage != Start
      && Frontier(ProfileOf(f)) == Frontier(ProfileOf(s)) + AdvanceCount(s, turns)
      && (forall k :: ProfileOf(s)[k].status != Untested ==> ProfileOf(f)[k] == ProfileOf(s)[k])
    decreases |turns|
  {
    if |turns| > 0 {
      var s1 := Step(s, turns[0]);
      StepPreservesInv(s, turns[0]);
      RunProgress(s1, turns[1..]);
    }
  }

  /**
   * From a session with no technical skill done yet, whatever the candidate
   * types and the oracle replies: at most three turns advance; the interview is
   * in the technical stage exactly while fewer than three have; and the
   * technical skills that have left Untested are exactly the first that-many
   * of the fixed order.
   */
  lemma AdvancesCountSkillsDone(s: Session, turns: seq<Turn>)
    requires Inv(s) && s.stage == TechnicalInterview && Frontier(ProfileOf(s)) == 0
    ensures var f := Run(s, turns);
      var count := AdvanceCount(s, turns);
      && count <= 3
      && HasAgent(f)
      && (f.stage == TechnicalInterview <==> count < 3)
      && (f.stage == BehavioralInterview || f.stage == Report <==> count == 3)
      && (forall i :: 0 <= i < 3 ==> (ProfileOf(f)[TechnicalSkills[i]].status != Untested <==> i < count))
  {
    var f := Run(s, turns);
    RunProgress(s, turns);
    assert Frontier(ProfileOf(f)) == AdvanceCount(s, turns);
    FrontierSplitsOrder(ProfileOf(f));
  }

  /** The same from the session a successful start produces. */
  lemma ThreeAdvancesReachBehavioral(s: Session, name: string, role: string, apiKey: Option<string>,
                                     caseStudy: JsonReply, question: TextReply, turns: seq<Turn>)
    requires KeyConfigured(apiKey)
    ensures var start := StartInterview(s, name, role, apiKey, caseStudy, question);
      var f := Run(start, turns);
      var count := AdvanceCount(start, turns);
      && count <= 3
      && HasAgent(f)
      && (f.stage == TechnicalInterview <==> count < 3)
      && (f.stage == BehavioralInterview || f.stage == Report <==> count == 3)
      && (forall i :: 0 <= i < 3 ==> (ProfileOf(f)[TechnicalSkills[i]].status != Untested <==> i < count))
  {
    StartEstablishesInv(s, name, role, apiKey, caseStudy, question);
    AdvancesCountSkillsDone(StartInterview(s, name, role, apiKey, caseStudy, question), turns);
  }

  /** Handling `a` and then `b` is handling `a + b`. */
  lemma {:induction false} RunAppend(s: Session, a: seq<Turn>, b: seq<Turn>)
    requires WellFormed(s)
    ensures Run(s, a + b) == Run(Run(s, a), b)
    decreases |a|
  {
    if |a| == 0 {
      assert a + b == b;
    } else {
      assert (a + b)[0] == a[0];
      assert (a + b)[1..] == a[1..] + b;
      RunAppend(Step(s, a[0]), a[1..], b);
    }
  }

  /** Every turn's intent label reads UNCERTAIN. */
  predicate AllUncertain(turns: seq<Turn>)
    decreases |turns|
  {
    |turns| == 0 || (IntentOf(turns[0]) == Uncertain && AllUncertain(turns[1..]))
  }

  /** Every UNCERTAIN turn of a run no longer than the technical skills left advances. */
  lemma {:induction false} UncertainRunAdvances(s: Session, turns: seq<Turn>)
    requires Inv(s) && s.stage == TechnicalInterview
    requires Frontier(ProfileOf(s)) + |turns| <= 3
    requires AllUncertain(turns)
    ensures AdvanceCount(s, turns) == |turns|
    decreases |turns|
  {
    if |turns| > 0 {
      var n := Frontier(ProfileOf(s));
      var s1 := Step(s, turns[0]);
      assert Inv(s1) && Frontier(ProfileOf(s1)) == n + 1
          && (s1.stage == TechnicalInterview <==> n + 1 < 3) by {
        SkipMarksFrontier(s, turns[0]);
      }
      if |turns| > 1 {
        UncertainRunAdvances(s1, turns[1..]);
      }
    }
  }

  /**
   * A run of UNCERTAIN turns, no longer than the technical skills left, marks
   * the skills from the frontier onwards Skipped, one per turn, in order.
   */
  lemma {:induction false} UncertainRunSkips(s: Session, turns: seq<Turn>)
    requires Inv(s) && s.stage == TechnicalInterview
    requires Frontier(ProfileOf(s)) + |turns| <= 3
    requires AllUncertain(turns)
    ensures HasAgent(Run(s, turns))
    ensures Run(s, turns).stage == TechnicalInterview || Run(s, turns).stage == BehavioralInterview
    ensures var n := Frontier(ProfileOf(s));
      forall i :: n <= i < n + |turns| ==> ProfileOf(Run(s, turns))[TechnicalSkills[i]].status == Skipped
    decreases |turns|, 1
  {
    if |turns| > 0 {
      var n := Frontier(ProfileOf(s));
      var s1 := Step(s, turns[0]);
      assert Inv(s1) && Frontier(ProfileOf(s1)) == n + 1
          && (s1.stage == TechnicalInterview || s1.stage == BehavioralInterview)
          && (s1.stage == TechnicalInterview <==> n + 1 < 3)
          && ProfileOf(s1)[TechnicalSkills[n]].status == Skipped by {
        SkipMarksFrontier(s, turns[0]);
      }
      SkippedCarried(s1, turns[1..], n);
    }
  }

  /** The Skipped record behind the frontier survives the rest of the run, which skips on. */
  lemma {:induction false} SkippedCarried(s: Session, rest: seq<Turn>, n: nat)
    requires Inv(s) && (s.stage == TechnicalInterview || s.stage == BehavioralInterview)
    requires n < 3 && Frontier(ProfileOf(s)) == n + 1
    requires s.stage == TechnicalInterview <==> n + 1 < 3
    requires ProfileOf(s)[TechnicalSkills[n]].status == Skipped
    requires n + 1 + |rest| <= 3 && AllUncertain(rest)
    ensures HasAgent(Run(s, rest))
    ensures Run(s, rest).stage == TechnicalInterview || Run(s, rest).stage == BehavioralInterview
    ensures forall i :: n <= i < n + 1 + |rest| ==> ProfileOf(Run(s, rest))[TechnicalSkills[i]].status == Skipped
    decreases |rest| + 1, 0
  {
    var f := Run(s, rest);
    var k := TechnicalSkills[n];
    assert HasAgent(f) && ProfileOf(f)[k] == ProfileOf(s)[k] by {
      RunProgress(s, rest);
    }
    if |rest| > 0 {
      UncertainRunSkips(s, rest);
    } else {
      assert f == s;
    }
  }

  /** An UNCERTAIN turn marks exactly the skill at the frontier Skipped. */
  lemma SkipMarksFrontier(s: Session, t: Turn)
    requires Inv(s) && s.stage == TechnicalInterview && IntentOf(t) == Uncertain
    ensures var r := Step(s, t);
      var n := Frontier(ProfileOf(s));
      && Inv(r)
      && Frontier(ProfileOf(r)) == n + 1
      && ProfileOf(r)[TechnicalSkills[n]].status == Skipped
      && (forall j :: j != TechnicalSkills[n] ==> ProfileOf(r)[j] == ProfileOf(s)[j])
      && (r.stage == TechnicalInterview <==> n + 1 < 3)
      && (r.stage != TechnicalInterview ==> r.stage == BehavioralInterview)
  {
    UncertainStep(s, t);
    AdvancingStep(s, t);
  }

  /**
   * A candidate who is unsure of all three technical questions reaches the
   * behavioural stage with every technical skill Skipped and Behavioral still
   * Untested.
   */
  lemma SkipAllReachesBehavioral(s: Session, unsure: seq<Turn>)
    requires Inv(s) && s.stage == TechnicalInterview && Frontier(ProfileOf(s)) == 0
    requires |unsure| == 3 && AllUncertain(unsure)
    ensures var m := Run(s, unsure);
      && m.stage == BehavioralInterview
      && HasAgent(m)
      && (forall i :: 0 <= i < 3 ==> ProfileOf(m)[TechnicalSkills[i]].status == Skipped)
      && ProfileOf(m)[Behavioral].status == Untested
  {
    UncertainRunSkips(s, unsure);
    UncertainRunAdvances(s, unsure);
    RunProgress(s, unsure);
  }

  /**
   * Three UNCERTAIN turns and then any behavioural answer end the interview
   * with every technical skill Skipped and Behavioral Assessed with the
   * oracle's score.
   */
  lemma SkipAllThenBehavioral(s: Session, unsure: seq<Turn>, last: Turn)
    requires Inv(s) && s.stage == TechnicalInterview && Frontier(ProfileOf(s)) == 0
    requires |unsure| == 3 && AllUncertain(unsure)
    ensures var f := Step(Run(s, unsure), last);
      && f.stage == Report
      && HasAgent(f)
      && (forall i :: 0 <= i < 3 ==> ProfileOf(f)[TechnicalSkills[i]].status == Skipped)
      && ProfileOf(f)[Behavioral].status == Assessed
      && ProfileOf(f)[Behavioral].score == CallJson(last.oracle.evaluation).score.GetOr(0)
  {
    SkipAllReachesBehavioral(s, unsure);
    SkippedSurviveBehavioralStep(Run(s, unsure), last);
  }

  /** The same stated of the whole four-turn interview as one run. */
  lemma SkipAllInterview(s: Session, turns: seq<Turn>)
    requires Inv(s) && s.stage == TechnicalInterview && Frontier(ProfileOf(s)) == 0
    requires |turns| == 4 && AllUncertain(turns[..3])
    ensures var f := Run(s, turns);
      && f.stage == Report
      && HasAgent(f)
      && (forall i :: 0 <= i < 3 ==> ProfileOf(f)[TechnicalSkills[i]].status == Skipped)
      && ProfileOf(f)[Behavioral].status == Assessed
      && ProfileOf(f)[Behavioral].score == CallJson(turns[3].oracle.evaluation).score.GetOr(0)
  {
    var unsure := turns[..3];
    assert turns == unsure + [turns[3]];
    assert Run(s, turns) == Step(Run(s, unsure), turns[3]) by {
      RunAppend(s, unsure, [turns[3]]);
      assert [turns[3]][1..] == [];
    }
    SkipAllThenBehavioral(s, unsure, turns[3]);
  }

  /** The behavioural step keeps every technical record and assesses Behavioral. */
  lemma SkippedSurviveBehavioralStep(m: Session, last: Turn)
    requires WellFormed(m) && m.stage == BehavioralInterview
    requires forall i :: 0 <= i < 3 ==> ProfileOf(m)[TechnicalSkills[i]].status == Skipped
    ensures var f := Step(m, last);
      && f.stage == Report
      && HasAgent(f)
      && (forall i :: 0 <= i < 3 ==> ProfileOf(f)[TechnicalSkills[i]].status == Skipped)
      && ProfileOf(f)[Behavioral].status == Assessed
      && ProfileOf(f)[Behavioral].score == CallJson(last.oracle.evaluation).score.GetOr(0)
  {
    BehavioralStep(m, last);
  }

  /** Every turn's intent label reads ANSWERING. */
  predicate AllAnswering(turns: seq<Turn>)
    decreases |turns|
  {
    |turns| == 0 || (IntentOf(turns[0]) == Answering && AllAnswering(turns[1..]))
  }

  /** The scores an ANSWERING turn's evaluation puts on a record. */
  predicate ScoredBy(rec: SkillRecord, t: Turn) {
    var e := CallJson(t.oracle.evaluation);
    && rec.status == Assessed
    && rec.score == e.score.GetOr(0)
    && rec.efficiency == Some(e.efficiencyScore.GetOr(0))
  }

  /**
   * An ANSWERING turn puts its evaluation on the skill at the frontier, keeps
   * every other record, and moves the frontier on by one.
   */
  lemma AnswerScoresFrontier(s: Session, t: Turn)
    requires Inv(s) && s.stage == TechnicalInterview && IntentOf(t) == Answering
    ensures var r := Step(s, t);
      var n := Frontier(ProfileOf(s));
      && Inv(r)
      && Frontier(ProfileOf(r)) == n + 1
      && ScoredBy(ProfileOf(r)[TechnicalSkills[n]], t)
      && (forall j :: j != TechnicalSkills[n] ==> ProfileOf(r)[j] == ProfileOf(s)[j])
      && (r.stage == TechnicalInterview <==> n + 1 < 3)
      && (r.stage != TechnicalInterview ==> r.stage == BehavioralInterview)
  {
    assert s.currentSkill.value == TechnicalSkills[Frontier(ProfileOf(s))];
    AnsweringStep(s, t);
    AdvancingStep(s, t);
  }

  /** Each turn's scores sit on the technical skills from the `n`-th on, in order. */
  predicate ScoredFrom(p: Profile, turns: seq<Turn>, n: nat)
    requires HasAllSkills(p)
  {
    forall k :: n <= k < n + |turns| && k < 3 ==> ScoredBy(p[TechnicalSkills[k]], turns[k - n])
  }

  /**
   * A run of ANSWERING turns, no longer than the technical skills left, puts
   * each turn's scores on its own skill, one per turn, in order from the frontier.
   */
  lemma {:induction false} AnswersScoredFromFrontier(s: Session, turns: seq<Turn>)
    requires Inv(s) && s.stage == TechnicalInterview
    requires Frontier(ProfileOf(s)) + |turns| <= 3
    requires AllAnswering(turns)
    ensures Inv(Run(s, turns)) && HasAgent(Run(s, turns))
    ensures Run(s, turns).stage == TechnicalInterview || Run(s, turns).stage == BehavioralInterview
    ensures ScoredFrom(ProfileOf(Run(s, turns)), turns, Frontier(ProfileOf(s)))
    decreases |turns|, 1
  {
    if |turns| > 0 {
      var n := Frontier(ProfileOf(s));
      var s1 := Step(s, turns[0]);
      assert && Inv(s1) && Frontier(ProfileOf(s1)) == n + 1
             && ScoredBy(ProfileOf(s1)[TechnicalSkills[n]], turns[0])
             && (s1.stage == TechnicalInterview <==> n + 1 < 3)
             && (s1.stage == TechnicalInterview || s1.stage == BehavioralInterview) by {
        AnswerScoresFrontier(s, turns[0]);
      }
      AnsweredCarried(s1, turns, n);
    }
  }

  /** The scored record behind the frontier survives the rest of the run, which scores on. */
  lemma {:induction false} AnsweredCarried(s: Session, turns: seq<Turn>, n: nat)
    requires |turns| > 0 && n < 3 && n + |turns| <= 3
    requires AllAnswering(turns[1..])
    requires Inv(s) && (s.stage == TechnicalInterview || s.stage == BehavioralInterview)
    requires Frontier(ProfileOf(s)) == n + 1 && (s.stage == TechnicalInterview <==> n + 1 < 3)
    requires ScoredBy(ProfileOf(s)[TechnicalSkills[n]], turns[0])
    ensures Inv(Run(s, turns[1..])) && HasAgent(Run(s, turns[1..]))
    ensures Run(s, turns[1..]).stage == TechnicalInterview || Run(s, turns[1..]).stage == BehavioralInterview
    ensures ScoredFrom(ProfileOf(Run(s, turns[1..])), turns, n)
    decreases |turns|, 0
  {
    var rest := turns[1..];
    var f := Run(s, rest);
    assert Inv(f) && HasAgent(f) && ProfileOf(f)[TechnicalSkills[n]] == ProfileOf(s)[TechnicalSkills[n]] by {
      RunProgress(s, rest);
    }
    if |rest| > 0 {
      AnswersScoredFromFrontier(s, rest);
      ScoresShift(ProfileOf(f), turns, n);
    } else {
      assert f == s;
    }
  }

  /** Scores from `n` for the first turn and from `n + 1` for the rest are scores from `n` for all. */
  lemma ScoresShift(p: Profile, turns: seq<Turn>, n: nat)
    requires HasAllSkills(p) && |turns| > 0 && n + |turns| <= 3
    requires ScoredBy(p[TechnicalSkills[n]], turns[0])
    requires ScoredFrom(p, turns[1..], n + 1)
    ensures ScoredFrom(p, turns, n)
  {
    forall k | n + 1 <= k < n + |turns|
      ensures ScoredBy(p[TechnicalSkills[k]], turns[k - n])
    {
      assert turns[1..][k - (n + 1)] == turns[k - n];
    }
  }

  /**
   * Answering every technical question still open reaches the behavioural
   * stage, with each turn's scores on its own skill in the fixed order from
   * the frontier, and Behavioral still Untested.
   */
  lemma AnsweringToTheEndScoresInOrder(s: Session, turns: seq<Turn>)
    requires Inv(s) && s.stage == TechnicalInterview
    requires Frontier(ProfileOf(s)) + |turns| == 3 && AllAnswering(turns)
    ensures var f := Run(s, turns);
      var n := Frontier(ProfileOf(s));
      && f.stage == BehavioralInterview
      && HasAgent(f)
      && ScoredFrom(ProfileOf(f), turns, n)
      && ProfileOf(f)[Behavioral].status == Untested
  {
    AnswersScoredFromFrontier(s, turns);
    LastScoredIsBehavioral(Run(s, turns), turns, Frontier(ProfileOf(s)));
  }

  /**
   * Three answered technical questions, from the start of the technical stage,
   * reach the behavioural stage with each turn's scores on its own skill, in
   * the fixed order, and Behavioral still Untested.
   */
  lemma ThreeAnswersScoredInOrder(s: Session, turns: seq<Turn>)
    requires Inv(s) && s.stage == TechnicalInterview && Frontier(ProfileOf(s)) == 0
    requires |turns| == 3 && AllAnswering(turns)
    ensures var f := Run(s, turns);
      && f.stage == BehavioralInterview
      && HasAgent(f)
      && ScoredBy(ProfileOf(f)[DataCleaning], turns[0])
      && ScoredBy(ProfileOf(f)[DataAnalysis], turns[1])
      && ScoredBy(ProfileOf(f)[DataSummarization], turns[2])
      && ProfileOf(f)[Behavioral].status == Untested
  {
    AnsweringToTheEndScoresInOrder(s, turns);
    assert ScoredFrom(ProfileOf(Run(s, turns)), turns, 0);
    assert TechnicalSkills[0] == DataCleaning && TechnicalSkills[1] == DataAnalysis;
    assert TechnicalSkills[2] == DataSummarization;
  }

  /** Once the last technical skill is scored, short of the report, the stage is behavioural. */
  lemma LastScoredIsBehavioral(f: Session, turns: seq<Turn>, n: nat)
    requires Inv(f) && (f.stage == TechnicalInterview || f.stage == BehavioralInterview)
    requires |turns| > 0 && n + |turns| == 3 && ScoredFrom(ProfileOf(f), turns, n)
    ensures f.stage == BehavioralInterview && ProfileOf(f)[Behavioral].status == Untested
  {
    assert ScoredBy(ProfileOf(f)[TechnicalSkills[2]], turns[2 - n]);
    FrontierSplitsOrder(ProfileOf(f));
    assert TechnicalSkills[2] == DataSummarization;
  }

  /** A reply of exactly "ANSWERING" is read as ANSWERING. */
  lemma AnsweringReplyRead(t: Turn)
    requires t.oracle.intent == Text(AnsweringLabel)
    ensures IntentOf(t) == Answering
  {
    assert Trimmed(AnsweringLabel) by {
      assert AnsweringLabel[0] == 'A' && AnsweringLabel[|AnsweringLabel| - 1] == 'G';
    }
    StripKeepsTrimmed(AnsweringLabel);
  }

  /** Any number of hint requests keep stage, agent, skill and question; each adds two messages. */
  lemma {:induction false} HintsKeepPosition(s: Session, turns: seq<Turn>)
    requires WellFormed(s) && s.stage == TechnicalInterview
    requires forall i :: 0 <= i < |turns| ==> IntentOf(turns[i]) == HintRequest
    ensures var f := Run(s, turns);
      && f.stage == s.stage
      && f.agent == s.agent
      && f.currentSkill == s.currentSkill
      && f.currentQuestion == s.currentQuestion
      && s.messages <= f.messages
      && |f.messages| == |s.messages| + 2 * |turns|
    decreases |turns|
  {
    if |turns| > 0 {
      HintStep(s, turns[0]);
      HintsKeepPosition(Step(s, turns[0]), turns[1..]);
    }
  }

  /** A reply of exactly "UNCERTAIN" is read as UNCERTAIN, so runs of such turns exist. */
  lemma UncertainReplyRead(t: Turn)
    requires t.oracle.intent == Text(UncertainLabel)
    ensures IntentOf(t) == Uncertain
  {
    assert Trimmed(UncertainLabel) by {
      assert UncertainLabel[0] == 'U' && UncertainLabel[|UncertainLabel| - 1] == 'N';
    }
    StripKeepsTrimmed(UncertainLabel);
  }

  /** When the intent call fails the label is the apology text, which is unrecognised. */
  lemma FailedIntentUnrecognised(t: Turn)
    requires t.oracle.intent == TextFailed
    ensures IntentOf(t) == Unrecognised
  {
    FailedIntentCall();
    assert |SystemErrorText| != |AnsweringLabel|;
    assert |SystemErrorText| != |HintLabel|;
    assert |SystemErrorText| != |UncertainLabel|;
  }

  /**
   * While the intent call keeps failing, the technical stage does not move:
   * every turn only adds the candidate's message, so the report is never reached.
   */
  lemma {:induction false} OutageStallsTechnicalStage(s: Session, turns: seq<Turn>)
    requires WellFormed(s) && s.stage == TechnicalInterview
    requires forall i :: 0 <= i < |turns| ==> turns[i].oracle.intent == TextFailed
    ensures var f := Run(s, turns);
      && f == s.(messages := f.messages)
      && |f.messages| == |s.messages| + |turns|
    decreases |turns|
  {
    if |turns| > 0 {
      FailedIntentUnrecognised(turns[0]);
      UnrecognisedStep(s, turns[0]);
      OutageStallsTechnicalStage(Step(s, turns[0]), turns[1..]);
    }
  }

  // ---------------------------------------------------------------------
  // The logged transcript
  // ---------------------------------------------------------------------

  /** No step writes the agent's `conversation_history`. */
  lemma {:induction false} RunKeepsHistory(s: Session, turns: seq<Turn>)
    requires WellFormed(s) && s.stage != Start
    ensures HasAgent(Run(s, turns)) && Run(s, turns).agent.value.history == s.agent.value.history
    decreases |turns|
  {
    if |turns| > 0 {
      var s1 := Step(s, turns[0]);
      RunKeepsHistory(s1, turns[1..]);
    }
  }

  /**
   * As written, the log's transcript is empty at the end of every interview,
   * on the report screen too,
   * although the chat transcript holds at least the greeting, the case study
   * and the first question.
   */
  lemma LoggedTranscriptAlwaysEmpty(s: Session, name: string, role: string, apiKey: Option<string>,
                                    caseStudy: JsonReply, question: TextReply, turns: seq<Turn>,
                                    reply: TextReply, now: real, seconds: nat)
    requires KeyConfigured(apiKey)
    ensures var f := Run(StartInterview(s, name, role, apiKey, caseStudy, question), turns);
      && HasAgent(f)
      && GenerateFinalReport(f.agent.value, reply, now, seconds).log.fullTranscript == []
      && (f.stage == Report ==> ShowReport(f, reply, now, seconds).log.fullTranscript == [])
      && |f.messages| >= 3
  {
    var start := StartInterview(s, name, role, apiKey, caseStudy, question);
    RunKeepsHistory(start, turns);
    RunMonotone(start, turns);
  }

  /**
   * The corrected report screen logs the whole chat transcript of the finished interview,
   * which opens with the greeting and holds at least three messages.
   */
  lemma ReportLogsTranscript(s: Session, name: string, role: string, apiKey: Option<string>,
                             caseStudy: JsonReply, question: TextReply, turns: seq<Turn>,
                             reply: TextReply, now: real, seconds: nat)
    requires KeyConfigured(apiKey)
    ensures var f := Run(StartInterview(s, name, role, apiKey, caseStudy, question), turns);
      && HasAgent(f)
      && |f.messages| >= 3
      && f.messages[0] == Message(Assistant, Greeting(name, role))
      && (f.stage == Report ==> ShowReportWithTranscript(f, reply, now, seconds).log.fullTranscript == f.messages)
  {
    var start := StartInterview(s, name, role, apiKey, caseStudy, question);
    RunMonotone(start, turns);
    RunKeepsHistory(start, turns);
  }
}

=== FILE: skill_profile.dfy ===
/**
 * The skill-profile store: one evaluation record per skill, keyed by the
 * four fixed skills, and the query that picks the next skill to test.
 */
module SkillProfile {
  import opened Wrappers

  datatype Skill = DataCleaning | DataAnalysis | DataSummarization | Behavioral

  datatype Status = Untested | Assessed | Skipped

  /**
   * One entry of the profile. `efficiency` is `None` where the dictionary has
   * no "efficiency" key at all, as for the behavioural skill.
   */
  datatype SkillRecord = SkillRecord(status: Status, score: int, efficiency: Option<int>, evidence: string)

  type Profile = map<Skill, SkillRecord>

  /** The order in which the technical skills are tested. */
  const TechnicalSkills: seq<Skill> := [DataCleaning, DataAnalysis, DataSummarization]

  predicate IsTechnical(k: Skill) {
    k != Behavioral
  }

  predicate HasAllSkills(p: Profile) {
    forall k: Skill :: k in p
  }

  /** A map whose keys are the four named skills has every skill as a key. */
  lemma KeysCoverAllSkills(p: Profile)
    requires p.Keys == {DataCleaning, DataAnalysis, DataSummarization, Behavioral}
    ensures HasAllSkills(p)
  {
    forall k: Skill ensures k in p {
      if k.DataCleaning? {
      } else if k.DataAnalysis? {
      } else if k.DataSummarization? {
      } else {
        assert k == Behavioral;
      }
    }
  }

  /** The profile a new agent starts with. */
  function FreshProfile(): (p: Profile)
    ensures HasAllSkills(p) && |p| == 4
    ensures forall k :: k in p ==> p[k].status == Untested && p[k].score == 0 && p[k].evidence == ""
    ensures forall k :: k in p && IsTechnical(k) ==> p[k].efficiency == Some(0)
    ensures p[Behavioral].efficiency.None?
  {
    var technical := SkillRecord(Untested, 0, Some(0), "");
    var p := map[DataCleaning := technical, DataAnalysis := technical,
                 DataSummarization := technical,
                 Behavioral := SkillRecord(Untested, 0, None, "")];
    assert p.Keys == {DataCleaning, DataAnalysis, DataSummarization, Behavioral};
    KeysCoverAllSkills(p);
    p
  }

  /** `skill_profile[k]["status"] = status`: the one field is overwritten, nothing else changes. */
  function SetStatus(p: Profile, k: Skill, status: Status): (r: Profile)
    requires k in p
    ensures r.Keys == p.Keys
    ensures r[k] == p[k].(status := status)
    ensures forall j :: j in p && j != k ==> r[j] == p[j]
  {
    p[k := p[k].(status := status)]
  }

  /**
   * The first skill of `order` whose status is Untested, or `None` when every
   * one of them has been assessed or skipped.
   */
  function FirstUntested(p: Profile, order: seq<Skill>): (r: Option<Skill>)
    requires forall i :: 0 <= i < |order| ==> order[i] in p
    ensures r.None? <==> forall i :: 0 <= i < |order| ==> p[order[i]].status != Untested
    ensures r.Some? ==> exists i :: 0 <= i < |order| && order[i] == r.value && FirstUntestedAt(p, order, i)
    decreases |order|
  {
    if |order| == 0 then None
    else if p[order[0]].status == Untested then
      assert FirstUntestedAt(p, order, 0);
      Some(order[0])
    else
      var r := FirstUntested(p, order[1..]);
      if r.Some? then
        var i :| 0 <= i < |order[1..]| && order[1..][i] == r.value && FirstUntestedAt(p, order[1..], i);
        assert FirstUntestedAt(p, order, i + 1);
        r
      else
        r
  }

  /** `order[i]` is Untested and every skill before it is not. */
  predicate FirstUntestedAt(p: Profile, order: seq<Skill>, i: int)
    requires forall j :: 0 <= j < |order| ==> order[j] in p
  {
    && 0 <= i < |order|
    && p[order[i]].status == Untested
    && forall j :: 0 <= j < i ==> p[order[j]].status != Untested
  }

  /** The next technical skill to ask about, as `ask_next_technical_question` searches for it. */
  function NextUntested(p: Profile): Option<Skill>
    requires HasAllSkills(p)
  {
    FirstUntested(p, TechnicalSkills)
  }

  /**
   * How many technical skills, counted from the front of the fixed order, are
   * no longer Untested before the first Untested one: the index of the skill
   * the interview is on, or 3 once all are done.
   */
  function Frontier(p: Profile): (n: nat)
    requires HasAllSkills(p)
    ensures n <= 3
  {
    if p[DataCleaning].status == Untested then 0
    else if p[DataAnalysis].status == Untested then 1
    else if p[DataSummarization].status == Untested then 2
    else 3
  }

  /** The search over the fixed order finds the skill at the frontier, and nothing once all three are done. */
  lemma NextUntestedAtFrontier(p: Profile)
    requires HasAllSkills(p)
    ensures Frontier(p) < 3 ==> NextUntested(p) == Some(TechnicalSkills[Frontier(p)])
    ensures Frontier(p) == 3 ==> NextUntested(p).None?
  {
    var r := NextUntested(p);
    if r.Some? {
      var i :| 0 <= i < 3 && TechnicalSkills[i] == r.value && FirstUntestedAt(p, TechnicalSkills, i);
      assert TechnicalSkills[0] == DataCleaning && TechnicalSkills[1] == DataAnalysis;
      assert i == Frontier(p);
    } else {
      assert p[TechnicalSkills[0]].status != Untested;
      assert p[TechnicalSkills[1]].status != Untested;
      assert p[TechnicalSkills[2]].status != Untested;
    }
  }

  /** The Untested technical skills are a suffix of the fixed order. */
  predicate Ordered(p: Profile)
    requires HasAllSkills(p)
  {
    && (p[DataCleaning].status == Untested ==> p[DataAnalysis].status == Untested)
    && (p[DataAnalysis].status == Untested ==> p[DataSummarization].status == Untested)
  }

  /** In an ordered profile the skills that have left Untested are exactly the first `Frontier(p)` of the order. */
  lemma FrontierSplitsOrder(p: Profile)
    requires HasAllSkills(p) && Ordered(p)
    ensures forall i :: 0 <= i < 3 ==> (p[TechnicalSkills[i]].status != Untested <==> i < Frontier(p))
  {
    assert TechnicalSkills[0] == DataCleaning && TechnicalSkills[1] == DataAnalysis;
    assert TechnicalSkills[2] == DataSummarization;
  }

  /**
   * Taking the skill at the frontier out of Untested, and touching nothing
   * else, keeps the Untested skills a suffix of the order and moves the
   * frontier on by exactly one.
   */
  lemma FrontierAdvances(p: Profile, q: Profile)
    requires HasAllSkills(p) && HasAllSkills(q) && Ordered(p) && Frontier(p) < 3
    requires q[TechnicalSkills[Frontier(p)]].status != Untested
    requires forall j :: j != TechnicalSkills[Frontier(p)] ==> q[j] == p[j]
    ensures Ordered(q)
    ensures Frontier(q) == Frontier(p) + 1
  {
    var n := Frontier(p);
    assert q[DataCleaning] == p[DataCleaning] || n == 0;
    assert q[DataAnalysis] == p[DataAnalysis] || n == 1;
    assert q[DataSummarization] == p[DataSummarization] || n == 2;
  }
}

=== FILE: text.dfy ===
/**
 * Pure string helpers the interviewer applies to oracle text and to the
 * candidate's name: Python's `str.strip()`, `str.replace(old, "")`,
 * `str.replace(' ', '_')` and `str(n)` for a non-negative integer.
 */
module Text {
  import opened Wrappers

  // ---------------------------------------------------------------------
  // str.strip()
  // ---------------------------------------------------------------------

  /**
   * The characters for which Python's `str.isspace()` holds, which are exactly
   * those `str.strip()` removes: tab through carriage return, the four
   * information separators U+001C to U+001F, space, U+0085, U+00A0, U+1680,
   * U+2000 to U+200A, U+2028, U+2029, U+202F, U+205F and U+3000.
   */
  predicate IsSpace(c: char) {
    || '\t' <= c <= '\r'
    || '\U{1C}' <= c <= ' '
    || c == '\U{85}' || c == '\U{A0}' || c == '\U{1680}'
    || '\U{2000}' <= c <= '\U{200A}'
    || c == '\U{2028}' || c == '\U{2029}' || c == '\U{202F}' || c == '\U{205F}' || c == '\U{3000}'
  }

  predicate AllSpace(s: string) {
    forall i :: 0 <= i < |s| ==> IsSpace(s[i])
  }

  /** Neither end of `s` is whitespace: `s` is a fixed point of `str.strip()`. */
  predicate Trimmed(s: string) {
    |s| > 0 ==> !IsSpace(s[0]) && !IsSpace(s[|s| - 1])
  }

  /** `s` with its longest all-whitespace prefix removed (`TrimStartSpec`). */
  function TrimStart(s: string): string
    decreases |s|
  {
    if |s| > 0 && IsSpace(s[0]) then TrimStart(s[1..]) else s
  }

  /** What `TrimStart` cuts off is whitespace; what it keeps is a suffix that does not start with whitespace. */
  lemma {:induction false} TrimStartSpec(s: string)
    ensures var r := TrimStart(s);
      && |r| <= |s| && r == s[|s| - |r|..]
      && AllSpace(s[..|s| - |r|])
      && (|r| > 0 ==> !IsSpace(r[0]))
    decreases |s|
  {
    if |s| > 0 && IsSpace(s[0]) {
      var t := s[1..];
      var r := TrimStart(t);
      TrimStartSpec(t);
      assert TrimStart(s) == r;
      assert t[|t| - |r|..] == s[|s| - |r|..];
      forall i | 0 <= i < |s| - |r| ensures IsSpace(s[i]) {
        if i > 0 {
          assert s[i] == t[..|t| - |r|][i - 1];
        }
      }
    } else {
      assert s[|s| - |s|..] == s;
    }
  }

  /** `s` with its longest all-whitespace suffix removed (`TrimEndSpec`). */
  function TrimEnd(s: string): string
    decreases |s|
  {
    if |s| > 0 && IsSpace(s[|s| - 1]) then TrimEnd(s[..|s| - 1]) else s
  }

  /** What `TrimEnd` cuts off is whitespace; what it keeps is a prefix that does not end with whitespace. */
  lemma {:induction false} TrimEndSpec(s: string)
    ensures var r := TrimEnd(s);
      && |r| <= |s| && r == s[..|r|]
      && AllSpace(s[|r|..])
      && (|r| > 0 ==> !IsSpace(r[|r| - 1]))
    decreases |s|
  {
    if |s| > 0 && IsSpace(s[|s| - 1]) {
      var t := s[..|s| - 1];
      var r := TrimEnd(t);
      TrimEndSpec(t);
      assert TrimEnd(s) == r;
      assert t[..|r|] == s[..|r|];
      forall i | |r| <= i < |s| ensures IsSpace(s[i]) {
        if i < |s| - 1 {
          assert s[i] == t[|r|..][i - |r|];
        }
      }
    } else {
      assert s[..|s|] == s;
    }
  }

  /** `r` is `s` with the all-whitespace pieces `s[..i]` and `s[i + |r|..]` cut off. */
  predicate CutFrom(s: string, i: int, r: string) {
    && 0 <= i <= |s| - |r|
    && r == s[i..i + |r|]
    && AllSpace(s[..i])
    && AllSpace(s[i + |r|..])
  }

  /** Python's `s.strip()` (`StripSpec`, `StripUnique`). */
  function Strip(s: string): string {
    TrimEnd(TrimStart(s))
  }

  /**
   * The result of `str.strip()` is a contiguous piece of `s`, everything cut
   * off on either side is whitespace, and the result itself neither starts nor
   * ends with whitespace (`StripUnique` shows that this pins it down).
   */
  lemma StripSpec(s: string)
    ensures Trimmed(Strip(s))
    ensures exists i :: CutFrom(s, i, Strip(s))
  {
    var t := TrimStart(s);
    var r := TrimEnd(t);
    TrimStartSpec(s);
    TrimEndSpec(t);
    var i := |s| - |t|;
    assert s[i + |r|..] == t[|r|..];
    assert CutFrom(s, i, r);
  }

  lemma {:induction false} TrimStartSkipsSpaces(a: string, t: string)
    requires AllSpace(a)
    ensures TrimStart(a + t) == TrimStart(t)
    decreases |a|
  {
    if |a| > 0 {
      assert (a + t)[1..] == a[1..] + t;
      TrimStartSkipsSpaces(a[1..], t);
    } else {
      assert a + t == t;
    }
  }

  lemma {:induction false} TrimEndSkipsSpaces(t: string, b: string)
    requires AllSpace(b)
    ensures TrimEnd(t + b) == TrimEnd(t)
    decreases |b|
  {
    if |b| > 0 {
      assert (t + b)[..|t + b| - 1] == t + b[..|b| - 1];
      TrimEndSkipsSpaces(t, b[..|b| - 1]);
    } else {
      assert t + b == t;
    }
  }

  /** Stripping whitespace from both sides of a trimmed text gives back exactly that text. */
  lemma StripUnique(a: string, m: string, b: string)
    requires AllSpace(a) && AllSpace(b) && Trimmed(m)
    ensures Strip(a + m + b) == m
  {
    assert a + m + b == a + (m + b);
    TrimStartSkipsSpaces(a, m + b);
    if |m| > 0 {
      assert TrimStart(m + b) == m + b;
      TrimEndSkipsSpaces(m, b);
    } else {
      assert m + b == b + [];
      TrimStartSkipsSpaces(b, []);
    }
  }

  /** Text with no whitespace at either end is left alone. */
  lemma StripKeepsTrimmed(r: string)
    requires Trimmed(r)
    ensures Strip(r) == r
  {
    var none: string := [];
    assert none + r + none == r;
    StripUnique(none, r, none);
  }

  /** `str.strip()` is idempotent. */
  lemma StripIdempotent(s: string)
    ensures Strip(Strip(s)) == Strip(s)
  {
    StripSpec(s);
    StripKeepsTrimmed(Strip(s));
  }

  // ---------------------------------------------------------------------
  // str.replace(pattern, "")
  // ---------------------------------------------------------------------

  /** `pat` occurs somewhere in `s` as a contiguous piece. */
  predicate HasInfix(s: string, pat: string)
    requires |pat| > 0
    decreases |s|
  {
    |s| >= |pat| && (s[..|pat|] == pat || HasInfix(s[1..], pat))
  }

  /** Python's `s.replace(pat, "")`: every non-overlapping occurrence, scanned left to right, is deleted. */
  function RemoveAll(s: string, pat: string): (r: string)
    requires |pat| > 0
    ensures |r| <= |s|
    ensures !HasInfix(s, pat) ==> r == s
    decreases |s|
  {
    if |s| < |pat| then s
    else if s[..|pat|] == pat then RemoveAll(s[|pat|..], pat)
    else [s[0]] + RemoveAll(s[1..], pat)
  }

  /** No character of `s` is `c`. */
  predicate Lacks(s: string, c: char) {
    forall i :: 0 <= i < |s| ==> s[i] != c
  }

  /** Text that cannot start an occurrence of `pat` passes through the removal untouched. */
  lemma {:induction false} RemoveAllSkipsPlain(a: string, t: string, pat: string)
    requires |pat| > 0 && Lacks(a, pat[0])
    ensures RemoveAll(a + t, pat) == a + RemoveAll(t, pat)
    decreases |a|
  {
    if |a| > 0 {
      assert (a + t)[0] == a[0];
      assert (a + t)[1..] == a[1..] + t;
      RemoveAllSkipsPlain(a[1..], t, pat);
      if |a + t| >= |pat| {
        assert (a + t)[..|pat|][0] != pat[0];
      }
      if |t| >= |pat| {
        assert RemoveAll(a + t, pat) == [a[0]] + RemoveAll(a[1..] + t, pat);
      }
      assert [a[0]] + (a[1..] + RemoveAll(t, pat)) == a + RemoveAll(t, pat);
    } else {
      assert a + t == t;
    }
  }

  /** The Markdown code fence. */
  const Fence: string := "```"
  /** The opening fence of a JSON code block. */
  const JsonFence: string := "```json"

  /** The text `_call_gemini` hands to the JSON parser: stripped, then every "```json" and every "```" deleted. */
  function JsonPayload(raw: string): (r: string)
    ensures |r| <= |raw|
    ensures !HasInfix(r, Fence)
  {
    StripSpec(raw);
    var once := RemoveAll(Strip(raw), JsonFence);
    NoFenceSurvives(once);
    RemoveAll(once, Fence)
  }

  /** A character that is not a backtick survives at the head of the text. */
  lemma HeadSurvivesFenceRemoval(s: string)
    requires |s| > 0 && s[0] != '`'
    ensures |RemoveAll(s, Fence)| > 0 && RemoveAll(s, Fence)[0] == s[0]
  {
    if |s| >= 3 {
      assert s[..3][0] == s[0];
    }
  }

  /**
   * Deleting every "```" leaves no "```" behind: a run of backticks loses its
   * occurrences three at a time and what is left of it is shorter than three.
   */
  lemma {:induction false} NoFenceSurvives(s: string)
    ensures !HasInfix(RemoveAll(s, Fence), Fence)
    decreases |s|
  {
    if |s| < 3 {
    } else if s[..3] == Fence {
      NoFenceSurvives(s[3..]);
    } else {
      var t := RemoveAll(s[1..], Fence);
      NoFenceSurvives(s[1..]);
      assert RemoveAll(s, Fence) == [s[0]] + t;
      assert ([s[0]] + t)[1..] == t;
      if s[0] == '`' {
        if s[1] != '`' {
          HeadSurvivesFenceRemoval(s[1..]);
          assert t[0] == s[1];
        } else {
          assert s[2] != '`';
          if |s| == 3 {
            assert t == s[1..];
          } else {
            assert s[1..][..3][1] == s[2];
            assert s[1..][1..] == s[2..];
            assert t == [s[1]] + RemoveAll(s[2..], Fence);
            HeadSurvivesFenceRemoval(s[2..]);
          }
          assert t[1] == s[2];
        }
      }
    }
  }

  /** A reply wrapped as a fenced JSON block yields exactly the block's body, when the body has no backtick. */
  lemma FencedBodyRecovered(body: string)
    requires Lacks(body, '`')
    ensures JsonPayload(JsonFence + body + Fence) == body
  {
    var raw := JsonFence + body + Fence;
    FencedTextTrimmed(body);
    StripKeepsTrimmed(raw);
    assert raw == JsonFence + (body + Fence);
    RemoveAllLeadingPattern(JsonFence, body + Fence);
    RemoveAllSkipsPlain(body, Fence, JsonFence);
    RemoveAllSkipsPlain(body, Fence, Fence);
    RemoveAllLeadingPattern(Fence, []);
    assert body + [] == body;
  }

  lemma FencedTextTrimmed(body: string)
    ensures Trimmed(JsonFence + body + Fence)
  {
    var raw := JsonFence + body + Fence;
    assert raw[0] == '`' && raw[|raw| - 1] == '`';
  }

  /** An occurrence of `pat` at the very start is deleted and the scan resumes after it. */
  lemma RemoveAllLeadingPattern(pat: string, t: string)
    requires |pat| > 0
    ensures RemoveAll(pat + t, pat) == RemoveAll(t, pat)
  {
    assert (pat + t)[..|pat|] == pat;
    assert (pat + t)[|pat|..] == t;
  }

  /** A reply without any backtick reaches the parser merely stripped. */
  lemma UnfencedReplyOnlyStripped(raw: string)
    requires Lacks(raw, '`')
    ensures JsonPayload(raw) == Strip(raw)
  {
    var s := Strip(raw);
    StripSpec(raw);
    var i :| CutFrom(raw, i, s);
    assert Lacks(s, '`');
    RemoveAllSkipsPlain(s, [], JsonFence);
    RemoveAllSkipsPlain(s, [], Fence);
    assert s + [] == s;
  }

  // ---------------------------------------------------------------------
  // str.replace(' ', '_')
  // ---------------------------------------------------------------------

  /** Python's `s.replace(' ', '_')`: only the space character U+0020 is replaced. */
  function SpacesToUnderscores(s: string): (r: string)
    ensures |r| == |s|
    ensures Lacks(r, ' ')
    ensures forall i :: 0 <= i < |s| && s[i] != ' ' ==> r[i] == s[i]
    ensures forall i :: 0 <= i < |s| && s[i] == ' ' ==> r[i] == '_'
  {
    if |s| == 0 then []
    else [if s[0] == ' ' then '_' else s[0]] + SpacesToUnderscores(s[1..])
  }

  // ---------------------------------------------------------------------
  // str(n) for n >= 0
  // ---------------------------------------------------------------------

  predicate IsDigit(c: char) {
    '0' <= c <= '9'
  }

  predicate AllDigits(s: string) {
    forall i :: 0 <= i < |s| ==> IsDigit(s[i])
  }

  function DigitChar(d: nat): (c: char)
    requires d < 10
    ensures IsDigit(c)
  {
    "0123456789"[d]
  }

  function DigitValue(c: char): (d: nat)
    requires IsDigit(c)
    ensures d < 10 && DigitChar(d) == c
  {
    (c as int - '0' as int)
  }

  /** Python's `str(n)`: decimal digits, no sign, no leading zero. */
  function NatToString(n: nat): (r: string)
    ensures |r| > 0 && AllDigits(r)
    ensures r[0] == '0' ==> n == 0
    decreases n
  {
    if n < 10 then [DigitChar(n)]
    else NatToString(n / 10) + [DigitChar(n % 10)]
  }

  /** The value of a string of decimal digits. */
  function ParseNat(s: string): nat
    requires AllDigits(s)
    decreases |s|
  {
    if |s| == 0 then 0
    else ParseNat(s[..|s| - 1]) * 10 + DigitValue(s[|s| - 1])
  }

  /** Reading back the decimal form of `n` gives `n`. */
  lemma {:induction false} ParseNatToString(n: nat)
    ensures ParseNat(NatToString(n)) == n
    decreases n
  {
    var r := NatToString(n);
    if n < 10 {
      assert r[..0] == [];
    } else {
      ParseNatToString(n / 10);
      assert r[..|r| - 1] == NatToString(n / 10);
    }
  }

  /** The position of the last `c` in `s`, like Python's `s.rfind(c)`. */
  function LastIndexOf(s: string, c: char): (r: Option<nat>)
    ensures r.None? <==> Lacks(s, c)
    ensures r.Some? ==> r.value < |s| && s[r.value] == c && Lacks(s[r.value + 1..], c)
    decreases |s|
  {
    if |s| == 0 then None
    else if s[|s| - 1] == c then Some(|s| - 1)
    else
      var r := LastIndexOf(s[..|s| - 1], c);
      if r.Some? then
        assert s[r.value + 1..] == s[..|s| - 1][r.value + 1..] + [s[|s| - 1]];
        r
      else
        r
  }

  /** An occurrence of `c` with no `c` after it is the one `LastIndexOf` finds. */
  lemma {:induction false} LastIndexOfFindsLastHit(s: string, c: char, j: nat)
    requires j < |s| && s[j] == c && Lacks(s[j + 1..], c)
    ensures LastIndexOf(s, c) == Some(j)
    decreases |s|
  {
    if j < |s| - 1 {
      var t := s[..|s| - 1];
      assert s[|s| - 1] == s[j + 1..][|s| - 2 - j];
      assert t[j + 1..] == s[j + 1..][..|s| - 2 - j];
      LastIndexOfFindsLastHit(t, c, j);
    }
  }
}

=== FILE: wrappers.dfy ===
/** Optional values and success/failure results shared by the other modules. */
module Wrappers {

  /** A value that may be missing: a dictionary lookup without a default, or Python's None. */
  datatype Option<+T> = None | Some(value: T) {

    /** The value, or `default` when missing: Python's `d.get(key, default)`. */
    function GetOr(default: T): T {
      match this
      case Some(v) => v
      case None => default
    }
  }

  /** Either a value or the error that was raised instead of producing it. */
  datatype Result<+R, +E> = Success(value: R) | Failure(error: E)
}
